=== FILE: README.md ===
# Goli Soda promotional page — verified model of its logic

The page is a scrolling narrative: character cards, trailers, director and
production sections, and decorative animation. This project models the
parts of it that have behaviour, as pure Dafny functions over immutable
records, and proves what they promise:

- **`SafeVideoPlayer`** (`video_player.dfy`, `player_properties.dfy`,
  `player_findings.dfy`). The resilient video player is an immutable
  `Player` record and a `Step` function over an `Event` datatype. Browser
  objects become events:
  - IntersectionObserver entries;
  - the settling of the promise returned by `play()`;
  - the `<video>` element's listeners;
  - the user's controls.

  Proved: source fallback on element errors (the index only moves forward,
  stays in bounds, and the error latches at the last source), the
  play-in-flight guard, the one-shot autoplay latch, the mute/volume
  coupling of the component's state, and the seek and skip clamping.
- **Source lists** (`source_list.dfy`, `trailer_reveal.dfy`,
  `character_video.dfy`, `page.dfy`). Proved: the player's empty-string
  filter, the fallback lists built by the trailer, character-video and page
  components, and the name-to-clip tables.
- **`interpolate`** and the **`hasScrolled`** latch of the scroll dot
  (`interpolation.dfy`, `scroll_dot.dfy`). Proved: index safety, the
  end-point values, breakpoint exactness, and that each result lies within
  its segment.
- **Navigation** (`page.dfy`). Proved: section numbering, dot labels and
  the dot count.
- **Character cards** (`character_card.dfy`). Proved: animation selection,
  variant opacities, and the observer/timer flag machine with its
  `showFullBio` latch.

`common.dfy` holds shared helpers: an `Option` for undefined and falsy
props, `String.prototype.includes`, and `Math.max`/`Math.min`.

## How the player is abstracted

- The model starts after mount (`mounted` is true).
- The `<video>` element exists only while the error panel is not shown.
  So `videoRef.current` is null exactly when `error` is set. Every handler
  that returns on `!videoRef.current` is modelled as returning on `error`.
  This covers the volume slider too: its handler does not test `error`,
  but it does test the ref.
- Calling `pause()` on a playing element fires `pause`, whose listener
  (lines 115-118) clears `isPlaying`. Both are collapsed into one
  `isPlaying := false`. This assumes the element really is playing when
  the state says so. After a source change that need not hold: the remount
  gives a fresh, paused element, and `handleVideoError` does not clear
  `isPlaying`. Then `pause()` fires no event and the state stays "playing",
  while the model clears it (see "## Left out").
- `play()` always returns a promise. The in-flight promise is
  `pending: Option<Request>`. A manual request records the source index
  its click handler closed over.
- `MediaError` is an `error` event dispatched at the `<video>` element
  itself, the listener at components/safe-video-player.tsx:142 (for
  example a decode failure). The URL is rendered as a `<source>` child
  (line 396). When a `<source>` fails to load, the browser fires `error` at
  that `<source>`, not at the `<video>`, so it is not a `MediaError`. Only
  element errors and a rejected manual play move to the next source. A
  rejected autoplay does not (`PlayerProperties.NoFallbackWithoutElementErrors`).
- The record is the component's React state, not the `<video>` element's
  own properties. The element has no `muted` or `volume` prop; the
  handlers write those to the element directly (lines 168, 266, 272, 281,
  286, 289). A change of source remounts the element through its `key`
  (line 393), and the new element starts unmuted, at volume 1 and at time
  0, whatever the state says. So the mute/volume coupling proved here is
  a property of the state, that is, of the icon and slider the user sees.
- `currentTime`, `duration` and `volume` are Dafny `real`s. There are no
  NaN durations and no IEEE rounding.
- The model follows the code as written, with one exception: a rejected
  manual play. `Step` uses the corrected `OnPlayRejected`, which advances
  only when the request was for the current source (see "## Findings").
  As written:
  - sources are not deduplicated; only empty strings are dropped;
  - `skip` has no duration guard;
  - changing source does not reset `currentTime` or `duration`;
  - an empty list is not failed at mount; the first element error or
    rejected manual play fails it, and a rejected autoplay does not;
  - `togglePlay` during a pending play still records the interaction;
  - `loadedmetadata` clears `error`, so the error latch holds for every
    other event.

## Model

| member | source | states |
|---|---|---|
| SourceList.SourcesProp | components/safe-video-player.tsx:19 | an undefined `videoSources` prop becomes the single BigBuckBunny URL; a given list is used as is |
| SourceList.FilterNonEmpty | components/safe-video-player.tsx:46 | the effective list holds exactly the non-empty entries of the input and nothing else |
| SourceList.ProcessSourcesIsFilter | components/safe-video-player.tsx:44-54 | both branches of the map return the entry unchanged, so the effective list is the filtered list |
| SourceList.FilterAppend | components/safe-video-player.tsx:45-46 | filtering distributes over concatenation: kept entries keep their relative order |
| SourceList.FilterIdentity | components/safe-video-player.tsx:45-46 | a list passes through unchanged iff it has no empty entry (no deduplication happens) |
| SourceList.FilterIdempotent | components/safe-video-player.tsx:45-46 | filtering an already filtered list changes nothing |
| SourceList.FilterLength | components/safe-video-player.tsx:46 | exactly the empty strings are removed: length drops by their count |
| VideoPlayer.Init | components/safe-video-player.tsx:19-37 | the initial state: index 0, no error, paused, unmuted, volume 1, time 0, duration 0, not buffering, no interaction, latch clear, nothing pending, defaults for undefined props |
| VideoPlayer.OnMediaError | components/safe-video-player.tsx:82-92 | below the last index the index advances by exactly one; at or past it the error is set and the index kept; nothing else changes |
| VideoPlayer.OnVisibility | components/safe-video-player.tsx:157-209 | with the error or the latch set nothing happens; an autoplay attempt sets the latch, forces mute and issues the request; only leaving view with nothing pending can stop playback |
| VideoPlayer.OnPlayResolved | components/safe-video-player.tsx:176-181 | a settled request clears the in-flight marker and the player is playing |
| VideoPlayer.OnPlayRejected | components/safe-video-player.tsx:182-241 | autoplay catch at 182-186, manual catch at 236-241: the marker is cleared and the player is not playing; a rejected autoplay does nothing else; a rejected manual play of the current source is a media error of it; the index never moves back |
| VideoPlayer.OnMetadataLoaded | components/safe-video-player.tsx:99-103 | records the duration and clears the error flag |
| VideoPlayer.TogglePlayStep | components/safe-video-player.tsx:211-243 | no-op on error; while a play is pending only records the interaction; otherwise pauses a playing player or issues a play for the current source |
| VideoPlayer.ToggleMuteStep | components/safe-video-player.tsx:261-274 | flips mute; an unmuted player is never silent; the volume changes only when unmuting at volume 0, and then to 0.5 |
| VideoPlayer.SetVolumeStep | components/safe-video-player.tsx:276-292 | sets the volume, and afterwards the player is muted iff the new volume is 0 |
| VideoPlayer.SeekStep | components/safe-video-player.tsx:295-305 | no-op on error or with duration 0; otherwise the time is fraction × duration, inside [0, duration] for a click inside the bar |
| VideoPlayer.SkipStep | components/safe-video-player.tsx:308-315 | the time becomes current + seconds clamped into [0, duration]: exact when inside, 0 below, duration above |
| VideoPlayer.Step | components/safe-video-player.tsx:99-154 | no event changes the source list, moves the index backwards or clears the autoplay latch |
| PlayerProperties.StepInv | components/safe-video-player.tsx:82-92 | the index stays a valid position (0 for an empty list), every pending request is backed by the flag that issued it, and an unmuted player has a non-zero volume |
| PlayerProperties.RunInv | components/safe-video-player.tsx:82-92 | the invariant holds after any sequence of events |
| PlayerProperties.InitInv | components/safe-video-player.tsx:25-37 | the mounted player satisfies the invariant |
| PlayerProperties.MediaErrorAdvancesOrLatches | components/safe-video-player.tsx:85-91 | on a reachable state a media error advances one source or latches the error at the last one |
| PlayerProperties.RunIndexNeverDecreases | components/safe-video-player.tsx:82-92 | over any event sequence the source index never decreases |
| PlayerProperties.RunIndexInBounds | components/safe-video-player.tsx:85-90 | from mount, for a non-empty list the index never exceeds the last position |
| PlayerProperties.RunKeepsSources | components/safe-video-player.tsx:44-54 | the source list and the autoplay prop are fixed for the whole session |
| PlayerProperties.AllSourcesFail | components/safe-video-player.tsx:85-87 | after one element `error` event per remaining source, the error panel is shown with the index at the last source |
| PlayerProperties.ErrorLatch | components/safe-video-player.tsx:85-86 | once set, the error stays set under every event except `loadedmetadata` |
| PlayerProperties.ErrorLatchRun | components/safe-video-player.tsx:85-86 | the error stays set over any sequence without a `loadedmetadata` |
| PlayerProperties.ErrorFreezesControls | components/safe-video-player.tsx:348-360 | while the error panel is shown, toggle, mute, volume, seek and skip change nothing |
| PlayerProperties.PendingToggleOnlyRecordsInteraction | components/safe-video-player.tsx:214-220 | while a play is pending, toggling only sets `userInteracted` |
| PlayerProperties.DoubleToggleIssuesOnePlay | components/safe-video-player.tsx:216-243 | two quick toggles from paused issue exactly one play and no pause |
| PlayerProperties.PendingVisibilityNoPause | components/safe-video-player.tsx:189-194 | while a play is pending, visibility changes neither pause nor issue a new request |
| PlayerProperties.SettleClearsPending | components/safe-video-player.tsx:176-186 | resolve and reject both clear the in-flight marker; resolve plays, reject does not |
| PlayerProperties.RejectionOutcome | components/safe-video-player.tsx:236-241 | a rejected autoplay only stops playing; a rejected manual play of the current source is followed by handleVideoError |
| PlayerProperties.AutoplayLatchStays | components/safe-video-player.tsx:158 | the autoplay latch is never reset |
| PlayerProperties.AutoplayAttempt | components/safe-video-player.tsx:162-172 | the attempt fires only when visible, enabled, not playing, with no manual interaction and nothing pending; it latches, mutes and issues the play |
| PlayerProperties.NoAutoplayAfterLatch | components/safe-video-player.tsx:158 | after the latch, no event sequence issues another autoplay |
| PlayerProperties.AutoplayAtMostOnce | components/safe-video-player.tsx:158-172 | any event sequence, however often the player enters and leaves view, issues at most one autoplay |
| PlayerProperties.NoPauseOnLeaveAfterAttempt | components/safe-video-player.tsx:158 | after the attempt, leaving the viewport changes nothing (the observer is gone) |
| PlayerProperties.PauseOnLeaveBeforeAttempt | components/safe-video-player.tsx:189-194 | before the attempt, leaving view pauses a playing player iff no play is pending (assuming the element is playing when the state says so) |
| PlayerProperties.UnmutedIsAudible | components/safe-video-player.tsx:261-292 | from mount, after any events, an unmuted player never has volume 0 |
| PlayerProperties.NoFallbackWithoutElementErrors | components/safe-video-player.tsx:82-92 | with no element `error` event and no manual play, a run never leaves the current source, even if autoplay is rejected |
| PlayerProperties.NoManualRequestStaysPut | components/safe-video-player.tsx:182-186 | one event other than an element error or a play click neither moves the index nor creates a manual request |
| PlayerProperties.SilenceThenUnmute | components/safe-video-player.tsx:270-273 | setting volume 0 and then toggling mute leaves the player unmuted at 0.5 |
| PlayerProperties.UnmuteKeepsVolume | components/safe-video-player.tsx:265-273 | unmuting at a non-zero volume keeps that volume |
| PlayerProperties.MuteKeepsVolume | components/safe-video-player.tsx:265-267 | muting never changes the volume |
| PlayerProperties.SkipPastEndClamps | components/safe-video-player.tsx:312 | a +10 s skip two seconds before the end lands exactly on the duration |
| PlayerProperties.SkipBeforeMetadata | components/safe-video-player.tsx:309-314 | skip has no duration guard: with duration 0 it sets time 0 and records the interaction |
| PlayerProperties.SeekBeforeMetadata | components/safe-video-player.tsx:296 | with duration 0 a seek changes nothing |
| PlayerProperties.TwoBadOneGood | components/safe-video-player.tsx:82-92 | with three sources, two element `error` events land on the third without the error panel |
| PlayerProperties.EmptyListFailsOnFirstError | components/safe-video-player.tsx:46 | every list of only empty strings mounts with no source, and the first element error shows the panel |
| PlayerFindings.OnPlayRejectedAsWritten | components/safe-video-player.tsx:182-241 | as written: a rejected autoplay only stops playing; a rejected manual play stops playing and moves the index to one past the index captured at the click, or shows the error panel when that index is the last |
| PlayerFindings.RejectionRewindsIndex | components/safe-video-player.tsx:227-241 | with three sources, a click on the first, two errors and then the rejection, the code as written moves the index from 2 back to 1 |
| PlayerFindings.AgreesForCurrentSource | components/safe-video-player.tsx:236-241 | when the rejected request belongs to the current source, the code as written and the model agree |
| PlayerFindings.CorrectedRejectionAdvancesAtMostOnce | components/safe-video-player.tsx:82-92 | the corrected handler never moves back and never skips a source that has not failed |
| Interpolation.Clamp | components/scroll-dot-animation.tsx:9 | for ordered end points the clamped value lies between them; inside it is the value; below the first it is the first; above the last it is the last |
| Interpolation.Search | components/scroll-dot-animation.tsx:12-15 | returns the first index at or after the start whose breakpoint reaches the value, or the length if none does |
| Interpolation.Progress | components/scroll-dot-animation.tsx:20-21 | progress is 0 for a zero-length segment, otherwise scales the segment to the offset, and lies in [0,1] for a value inside it |
| Interpolation.Interpolate | components/scroll-dot-animation.tsx:7-25 | a number is produced iff there are two breakpoints and the segment found has a breakpoint and an output |
| Interpolation.SegmentInBounds | components/scroll-dot-animation.tsx:9-15 | with at least two breakpoints and first ≤ last, the segment index lies in 1 .. length-1 |
| Interpolation.Defined | components/scroll-dot-animation.tsx:9-24 | with first ≤ last and enough outputs, interpolate always yields a number |
| Interpolation.UndefinedForShortInput | components/scroll-dot-animation.tsx:9-20 | fewer than two breakpoints never yield a number |
| Interpolation.ClampedInSegment | components/scroll-dot-animation.tsx:9-17 | the clamped value lies between the segment's two breakpoints |
| Interpolation.ResultInSegment | components/scroll-dot-animation.tsx:19-24 | the result lies between the two outputs of its segment |
| Interpolation.ResultWithinOutputBounds | components/scroll-dot-animation.tsx:19-24 | the result respects any bounds that hold for every output |
| Interpolation.ZeroLengthSegment | components/scroll-dot-animation.tsx:20-21 | a zero-length segment yields the segment's first output |
| Interpolation.SearchFinds | components/scroll-dot-animation.tsx:12-15 | the search stops exactly at the first index reaching the value |
| Interpolation.SearchStopsBy | components/scroll-dot-animation.tsx:12-15 | the search stops no later than any index whose breakpoint reaches the value |
| Interpolation.AtOrBelowFirst | components/scroll-dot-animation.tsx:9-24 | for sorted breakpoints, values at or below the first give the first output |
| Interpolation.AtBreakpoint | components/scroll-dot-animation.tsx:12-24 | for strictly increasing breakpoints, breakpoint k gives output k |
| Interpolation.AtOrAboveLast | components/scroll-dot-animation.tsx:9-24 | for strictly increasing breakpoints, values at or above the last give the last output |
| ScrollDot.CurvesWellFormed | components/scroll-dot-animation.tsx:60-69 | all seven curves have strictly increasing breakpoints and one output each |
| ScrollDot.OnProgress | components/scroll-dot-animation.tsx:53-72 | the latch is set iff it was set or progress exceeds 0.01; the value that sets it moves nothing; afterwards the dot follows its curve and the font is 0.15 of the dot |
| ScrollDot.LatchNeverResets | components/scroll-dot-animation.tsx:55-57 | after any progress sequence the latch is set iff it was set or some value exceeded 0.01 |
| ScrollDot.AnimatedValuesInRange | components/scroll-dot-animation.tsx:60-64 | once scrolling has begun, dot size stays in [5,300], rotation in [0,720] and the opacities in their keyframe ranges |
| ScrollDot.EndOfRange | components/scroll-dot-animation.tsx:60-61 | at progress ≥ 1 the dot is 300 wide and fully transparent |
| TrailerReveal.TrailerSources | components/trailer-reveal.tsx:20-29 | the caller's list is an unchanged prefix; two entries are appended; the last is sample-video; the one before is trailer-1/2/3 by year, with 2014 first |
| TrailerReveal.PlayerTitle | components/trailer-reveal.tsx:178 | the player's title is the section title, unchanged, followed by " - Official Trailer" |
| TrailerReveal.Tags | components/trailer-reveal.tsx:268-274 | five tags: the year tag, then Tamil, Action, Drama, then Hotstar when reversed and Theatrical Release otherwise |
| TrailerReveal.YearTagChoice | components/trailer-reveal.tsx:269 | the year tag is 2018 iff `reverse`, else 2014; 2024 is unreachable |
| TrailerReveal.Year2014HasPriority | components/trailer-reveal.tsx:23-26 | a title mentioning both 2014 and 2018 gets trailer-1 |
| TrailerReveal.FirstTrailerRepeatsLocalFile | components/trailer-reveal.tsx:20-24 | no deduplication: the 2014 trailer's list already has trailer-1.mp4 and its player gets it twice |
| TrailerReveal.RisingTrailer | components/trailer-reveal.tsx:23-29 | the Rising title mentions neither year, so it gets trailer-3; without `reverse` it is tagged 2014 |
| TrailerReveal.MissingCharExcludes | components/trailer-reveal.tsx:23-25 | a title lacking some character of the year cannot include the year |
| CharacterVideo.VideoPathIsTable | components/character-video.tsx:16-38 | each of the ten names maps to its fixed clip; any other name maps to the empty path |
| CharacterVideo.Sources | components/character-video.tsx:40-42 | always two entries: `[videoSrc, clip]` when `videoSrc` is truthy, else `[clip, BigBuckBunny]` |
| CharacterVideo.Title | components/character-video.tsx:44 | the explicit title when truthy, else the name + " Highlight Reel" |
| CharacterVideo.UnknownNameKeepsOnlyRemote | components/character-video.tsx:40-42 | an unknown name without `videoSrc` leaves only the BigBuckBunny URL after the player's filter |
| CharacterVideo.KnownNameKeepsBoth | components/character-video.tsx:40-42 | a known name without `videoSrc` keeps both entries through the filter |
| Page.PathTablesDifferOnlyForPrasanna | app/page.tsx:189-209 | the page's clip table agrees with the character-video table on every name except PRASANNA |
| Page.WithVideos | app/page.tsx:185-219 | one entry per character with the same name, sources `[clip, sample-video]` and title name + " - Character Spotlight" |
| Page.CastSourcesNonEmpty | app/page.tsx:211-217 | every cast member's two sources are non-empty, and the player's filter returns the list unchanged |
| Page.Layout | app/page.tsx:341-480 | n cast members give n + 9 sections |
| Page.SectionIdsArePositions | app/page.tsx:341-480 | the k-th section carries id section-k, so `#section-k` addresses it |
| Page.DotLabelsMatchSections | app/page.tsx:310-328 | the label of dot k names what is in section k: cast names, Director, Production, Finale |
| Page.CastDot | app/page.tsx:430-431 | cast member i has the rendered dot i + 6, labelled with their name and linked to their section |
| Page.TotalSections | app/page.tsx:223 | as written, the dot count is two less than the number of sections, and the last dot is the Director section's |
| Page.DotsStopAtDirector | app/page.tsx:223 | as written there are two dots fewer than sections; the last dot is Director; Production and Finale have no dot |
| Page.DotCount | app/page.tsx:295-328 | corrected: one dot per section |
| Page.EverySectionHasADot | app/page.tsx:295-328 | corrected: every section, Production and Finale included, has a dot carrying its label |
| CharacterCard.SelectAnimation | components/character-card.tsx:49-54 | fade on mobile, else the explicit type, else entry index mod 10; always one of the ten |
| CharacterCard.AnimationTypesDistinct | components/character-card.tsx:49 | the ten names are distinct and cover every animation |
| CharacterCard.DefaultAnimationsCycle | components/character-card.tsx:54 | without explicit types the cards cycle with period 10, and any ten consecutive cards differ |
| CharacterCard.ImageVisibleIffUnfolded | components/character-card.tsx:137-288 | for every variant, the default included, the image is at opacity 1 iff unfolded and 0 otherwise |
| CharacterCard.CardStep | components/character-card.tsx:80-100 | intersecting sets in-view; the bio expands, and an unfold is scheduled, iff the ratio exceeds 0.7, with nothing else changed; leaving resets exactly in-view, unfolded and complete; a due unfold timer unfolds and schedules the completion; a due completion timer completes; "Read more" only expands; the bio never collapses |
| CharacterCard.FullBioLatched | components/character-card.tsx:86 | once expanded the bio stays expanded over any events, and "Read more" stays hidden |
| CharacterCard.ReadMoreControl | components/character-card.tsx:577-582 | pressing "Read more", or any view with ratio above 0.7, hides it; a view at or below 0.7 leaves it as it was |
| CharacterCard.CardInvHolds | components/character-card.tsx:82-94 | a pending or fired unfold always comes after the bio was expanded |
| CharacterCard.CompletesOutOfView | components/character-card.tsx:88-99 | the timers are not cancelled, so a card can finish its animation after leaving view |

## Findings

| source | as written | input that shows it | evidently intended | confidence | as-written member | corrected member |
|---|---|---|---|---|---|---|
| app/page.tsx:223 | `totalSections = 5 + n + 2` counts 5 sections before the cast, but there are 6 (`section-0`..`section-5`) and 3 after it | n = 10: sections `section-0`..`section-18` exist, but dots stop at 16 (Director); Production (17) and Finale (18) get no dot, so their labels are dead | one dot per section, n + 9 | not executed; high | Page.DotsStopAtDirector | Page.EverySectionHasADot |
| components/safe-video-player.tsx:236-241 | a rejected manual play calls the `handleVideoError` of the click's render, which reads the index captured at the click | sources a, b, c; click play on a; a and b fail; then the play is rejected: the index goes from 2 back to 1 and retries b | advance only past the source the rejected request was for, never backwards | not executed; low (needs the rejection to arrive after two element errors; the remount at the first index change, via the `key` at line 393, probably rejects the pending play before a second error can arrive) | PlayerFindings.RejectionRewindsIndex | PlayerFindings.CorrectedRejectionAdvancesAtMostOnce |

The rest of the model uses the corrected definitions: `VideoPlayer.OnPlayRejected` and `Page.DotCount`.

## Left out

- Rendering and animation: framer-motion choreography, Tailwind classes, particles, smoke, parallax and the three.js scenes. These are presentation driven by `Math.random` and float geometry.
- Each image variant is modelled only by its opacity. Its other properties (rotation, scale, blur, clip path) are presentation.
- The control overlay's 3-second auto-hide timer (components/safe-video-player.tsx:59-79, 245-258, 317-331), `showControls` and mouse handling. These are presentation timers.
- The 300 ms and 800 ms unfold delays are modelled only as discrete timer events with a count of pending timers, not as durations.
- The `progress` percentage (components/safe-video-player.tsx:107), `formatTime` and the mouse-position normalisation. These are float display arithmetic.
- NaN and infinite durations and values. `real` has no IEEE behaviour. Where `interpolate` would read past an array it returns `None` rather than `NaN`.
- The `mounted` flag and the "Loading video..." placeholder. The model starts after mount.
- The page's `activeSection` tracking over the DOM and the scroll-cue visibility. Both need layout geometry.
- `isVisible` of the scroll dot (components/scroll-dot-animation.tsx:78-91). It depends on window height.
- components/video-player.tsx (an older player that no page imports), the safe-* wrappers, lib/client-utils.ts, components/error-boundary.tsx and next.config.js. These are environment probing and framework plumbing.
- VideoPlayer.OnVisibility: when the state says playing and the card leaves view, the model clears `isPlaying`. The source only calls `pause()` (line 193), and `isPlaying` is cleared by the element's `pause` event. After a source change, the freshly mounted element is already paused, so that event never comes and the state can stay "playing". The model does not separate the element's play state from React's.
- PlayerProperties.PauseOnLeaveBeforeAttempt: proves the pause for every state that says playing with nothing pending. That includes the post-remount case above, where the source leaves `isPlaying` set.
- The element's own audio and time after a remount: when a source fails, the `key` change mounts a fresh `<video>` that is unmuted at volume 1. The state can still say muted (for example after a muted autoplay), so the icon and what the user hears can disagree. The model tracks only the state, because the element's properties are never read back into it.
- The `console.log` and `console.error` calls in `handleVideoError`, the media listeners and the play handlers (components/safe-video-player.tsx:83-237). They are diagnostics with no effect on state.
- String lengths: Dafny counts characters; JavaScript's `length` counts UTF-16 code units. They differ only outside the Basic Multilingual Plane.
- VideoPlayer.SetVolumeStep: returns early while the error panel is shown, because the handler's `!videoRef.current` test fails once the `<video>` element is unmounted. The handler has no explicit `error` test.

=== FILE: character_card.dfy ===
/** `CharacterCard` (components/character-card.tsx): which reveal animation a
    card uses, the opacities of its image variants, and the flags its
    IntersectionObserver and unfold timers drive. */
module CharacterCard {

  import opened Common

  datatype Animation = Book | Magical | Slide | Fade | Rotate | Portal | Glitch | Flip3d | Morph | Reveal

  /** `animationTypes`, in order. */
  const AnimationTypes: seq<Animation> :=
    [Book, Magical, Slide, Fade, Rotate, Portal, Glitch, Flip3d, Morph, Reveal]

  /** The card's animation: "fade" on mobile, otherwise the character's own
      type, otherwise the list entry at `index mod 10`. */
  function SelectAnimation(isMobile: bool, given: Option<Animation>, index: nat): (r: Animation)
    ensures r in AnimationTypes
    ensures isMobile ==> r == Fade
    ensures !isMobile && given.Some? ==> r == given.value
    ensures !isMobile && given.None? ==> r == AnimationTypes[index % |AnimationTypes|]
  {
    if isMobile then Fade
    else match given
      case Some(a) => assert AnimationTypes[Position(a)] == a; a
      case None => AnimationTypes[index % |AnimationTypes|]
  }

  /** Where each animation sits in `animationTypes`. */
  function Position(a: Animation): (k: nat)
    ensures k < |AnimationTypes| && AnimationTypes[k] == a
  {
    match a
    case Book => 0
    case Magical => 1
    case Slide => 2
    case Fade => 3
    case Rotate => 4
    case Portal => 5
    case Glitch => 6
    case Flip3d => 7
    case Morph => 8
    case Reveal => 9
  }

  /** Every animation appears exactly once in the list. */
  lemma AnimationTypesDistinct()
    ensures forall a, b :: 0 <= a < b < |AnimationTypes| ==> AnimationTypes[a] != AnimationTypes[b]
    ensures forall x: Animation :: x in AnimationTypes
  {
    forall x: Animation ensures x in AnimationTypes {
      assert AnimationTypes[Position(x)] == x;
    }
  }

  /** Without an explicit type, cards cycle through the ten animations: ten
      consecutive cards all differ, and card `i + 10` repeats card `i`. */
  lemma DefaultAnimationsCycle(i: nat, j: nat)
    ensures SelectAnimation(false, None, i + 10) == SelectAnimation(false, None, i)
    ensures i < j < i + 10 ==> SelectAnimation(false, None, i) != SelectAnimation(false, None, j)
  {
    AnimationTypesDistinct();
    if i < j < i + 10 {
      assert i % 10 != j % 10;
    }
  }

  // --------------------------------------------------------------- variants

  /** The animated opacity of an image variant. */
  datatype Pose = Pose(opacity: real)

  datatype Variants = Variants(closed: Pose, open: Pose)

  /** `getImageAnimationVariants`; `None` is the switch's `default` branch. */
  function ImageVariants(a: Option<Animation>): Variants
  {
    match a
    case None => Variants(Pose(0.0), Pose(1.0))
    case Some(Book) => Variants(Pose(0.0), Pose(1.0))
    case Some(Magical) => Variants(Pose(0.0), Pose(1.0))
    case Some(Slide) => Variants(Pose(0.0), Pose(1.0))
    case Some(Fade) => Variants(Pose(0.0), Pose(1.0))
    case Some(Rotate) => Variants(Pose(0.0), Pose(1.0))
    case Some(Portal) => Variants(Pose(0.0), Pose(1.0))
    case Some(Glitch) => Variants(Pose(0.0), Pose(1.0))
    case Some(Flip3d) => Variants(Pose(0.0), Pose(1.0))
    case Some(Morph) => Variants(Pose(0.0), Pose(1.0))
    case Some(Reveal) => Variants(Pose(0.0), Pose(1.0))
  }

  /** The image's opacity: the `open` variant while unfolded, else `closed`. */
  function ImageOpacity(a: Option<Animation>, isUnfolded: bool): real
  {
    var v := ImageVariants(a);
    if isUnfolded then v.open.opacity else v.closed.opacity
  }

  /** Whatever the animation, the image is fully visible exactly when the card
      is unfolded and invisible otherwise. */
  lemma ImageVisibleIffUnfolded(a: Option<Animation>, isUnfolded: bool)
    ensures ImageOpacity(a, isUnfolded) == 1.0 <==> isUnfolded
    ensures ImageOpacity(a, isUnfolded) == 0.0 <==> !isUnfolded
  {
  }

  // ------------------------------------------------------------------ flags

  /** The card's flags, plus the unfold (300 ms) and completion (800 ms)
      timers that have been scheduled and not yet fired. Timers are never
      cancelled. */
  datatype Card = Card(
    isInView: bool,
    showFullBio: bool,
    isUnfolded: bool,
    animationComplete: bool,
    unfoldTimers: nat,
    completeTimers: nat)

  datatype CardEvent =
    | Observed(isIntersecting: bool, ratio: real)   // IntersectionObserver entry
    | UnfoldTimer                                    // the 300 ms timer fires
    | CompleteTimer                                  // the 800 ms timer fires
    | ReadMore                                       // the "Read more" button

  /** The intersection ratio above which the bio expands. */
  const ExpandRatio: real := 0.7

  /** Descriptions longer than this get a "Read more" control. */
  const ShortDescription: nat := 150

  const InitialCard: Card := Card(false, false, false, false, 0, 0)

  function CardStep(c: Card, e: CardEvent): (r: Card)
    ensures c.showFullBio ==> r.showFullBio
    ensures e.Observed? && e.isIntersecting ==>
      r.isInView && (r.showFullBio <==> c.showFullBio || e.ratio > ExpandRatio)
    ensures e.Observed? && e.isIntersecting ==>
      (r.unfoldTimers > c.unfoldTimers <==> e.ratio > ExpandRatio)
      && r.isUnfolded == c.isUnfolded && r.animationComplete == c.animationComplete
      && r.completeTimers == c.completeTimers
    ensures e.Observed? && !e.isIntersecting ==>
      r == c.(isInView := false, isUnfolded := false, animationComplete := false)
    ensures e == UnfoldTimer && c.unfoldTimers > 0 ==>
      r.isUnfolded && r.unfoldTimers == c.unfoldTimers - 1 && r.completeTimers == c.completeTimers + 1
    ensures e == CompleteTimer && c.completeTimers > 0 ==>
      r.animationComplete && r.completeTimers == c.completeTimers - 1
    ensures (e == UnfoldTimer && c.unfoldTimers == 0) || (e == CompleteTimer && c.completeTimers == 0) ==> r == c
    ensures e == ReadMore ==> r == c.(showFullBio := true)
  {
    match e
    case Observed(intersecting, ratio) =>
      if intersecting then
        if ratio > ExpandRatio then
          c.(isInView := true, showFullBio := true, unfoldTimers := c.unfoldTimers + 1)
        else c.(isInView := true)
      else c.(isInView := false, isUnfolded := false, animationComplete := false)
    case UnfoldTimer =>
      if c.unfoldTimers == 0 then c
      else c.(isUnfolded := true, unfoldTimers := c.unfoldTimers - 1,
              completeTimers := c.completeTimers + 1)
    case CompleteTimer =>
      if c.completeTimers == 0 then c
      else c.(animationComplete := true, completeTimers := c.completeTimers - 1)
    case ReadMore => c.(showFullBio := true)
  }

  function RunCard(c: Card, es: seq<CardEvent>): Card
    decreases |es|
  {
    if |es| == 0 then c else RunCard(CardStep(c, es[0]), es[1..])
  }

  /** The "Read more" control is rendered. */
  predicate ReadMoreShown(c: Card, description: string)
  {
    !c.showFullBio && |description| > ShortDescription
  }

  /** Once the bio is expanded it stays expanded, and the control is gone. */
  lemma {:induction false} FullBioLatched(c: Card, es: seq<CardEvent>, description: string)
    requires c.showFullBio
    ensures RunCard(c, es).showFullBio
    ensures !ReadMoreShown(RunCard(c, es), description)
    decreases |es|
  {
    if |es| > 0 {
      FullBioLatched(CardStep(c, es[0]), es[1..], description);
    }
  }

  /** The control is shown for a long description until it is pressed or the
      card is seen above the expand ratio. */
  lemma ReadMoreControl(c: Card, description: string)
    ensures !ReadMoreShown(CardStep(c, ReadMore), description)
    ensures forall ratio :: ratio > ExpandRatio ==>
      !ReadMoreShown(CardStep(c, Observed(true, ratio)), description)
    ensures forall ratio :: ratio <= ExpandRatio ==>
      (ReadMoreShown(CardStep(c, Observed(true, ratio)), description) <==> ReadMoreShown(c, description))
  {
  }

  /** Everything that unfolds the card follows an expansion of the bio. */
  predicate CardInv(c: Card)
  {
    (c.unfoldTimers > 0 || c.completeTimers > 0 || c.isUnfolded || c.animationComplete)
      ==> c.showFullBio
  }

  lemma {:induction false} CardInvHolds(c: Card, es: seq<CardEvent>)
    requires CardInv(c)
    ensures CardInv(RunCard(c, es))
    decreases |es|
  {
    if |es| > 0 {
      assert CardInv(CardStep(c, es[0]));
      CardInvHolds(CardStep(c, es[0]), es[1..]);
    }
  }

  /** Because the timers are not cancelled, a card can finish its animation
      after it has left the viewport. */
  lemma CompletesOutOfView()
    ensures var r := RunCard(InitialCard,
                             [Observed(true, 0.8), UnfoldTimer, Observed(false, 0.0), CompleteTimer]);
      r.animationComplete && !r.isInView && r.showFullBio
  {
    var es := [Observed(true, 0.8), UnfoldTimer, Observed(false, 0.0), CompleteTimer];
    assert es[1..] == [UnfoldTimer, Observed(false, 0.0), CompleteTimer];
    assert es[1..][1..] == [Observed(false, 0.0), CompleteTimer];
    assert es[1..][1..][1..] == [CompleteTimer];
  }
}

=== FILE: character_video.dfy ===
/** `CharacterVideo` (components/character-video.tsx): each known cast name
    has a fixed local clip; the player receives that clip together with an
    explicit clip or the remote sample. */
module CharacterVideo {

  import opened Common
  import SourceList

  /** The cast names this component knows, in the order it tests them. */
  const KnownNames: seq<string> := [
    "RAJ THARUN", "ANISH", "KISHORE DS", "BHARATH SEENI", "JEFFREY",
    "BHARATH", "AMMU ABHIRAMI", "AARI", "PRASANNA", "SUNIL"]

  /** The clip of each known name, position by position. */
  const KnownPaths: seq<string> := [
    "/assets/videos/raj-tharun.mov", "/assets/videos/anish.mov",
    "/assets/videos/kishore.mov", "/assets/videos/BHARATH ANNA.mov",
    "/assets/videos/jeffrey.mov", "/assets/videos/bharath.mov",
    "/assets/videos/ammu.mov", "/assets/videos/aari.mov",
    "/assets/videos/paldabba.mov", "/assets/videos/sunil.mov"]

  /** The `if … else if` chain on the name; any other name gets `""`. */
  function VideoPath(name: string): string
  {
    if name == "RAJ THARUN" then "/assets/videos/raj-tharun.mov"
    else if name == "ANISH" then "/assets/videos/anish.mov"
    else if name == "KISHORE DS" then "/assets/videos/kishore.mov"
    else if name == "BHARATH SEENI" then "/assets/videos/BHARATH ANNA.mov"
    else if name == "JEFFREY" then "/assets/videos/jeffrey.mov"
    else if name == "BHARATH" then "/assets/videos/bharath.mov"
    else if name == "AMMU ABHIRAMI" then "/assets/videos/ammu.mov"
    else if name == "AARI" then "/assets/videos/aari.mov"
    else if name == "PRASANNA" then "/assets/videos/paldabba.mov"
    else if name == "SUNIL" then "/assets/videos/sunil.mov"
    else ""
  }

  /** The chain agrees with the table: name `k` gets path `k`, every other name
      gets the empty path. */
  lemma VideoPathIsTable(name: string)
    ensures forall k :: 0 <= k < |KnownNames| && name == KnownNames[k] ==> VideoPath(name) == KnownPaths[k]
    ensures name !in KnownNames ==> VideoPath(name) == ""
    ensures name in KnownNames ==> VideoPath(name) != ""
  {
  }

  /** The `character` prop; `videoSrc` and `videoTitle` are optional. */
  datatype Character = Character(name: string, videoSrc: Option<string>, videoTitle: Option<string>)

  /** The sources handed to the player. An empty `videoSrc` is falsy and
      counts as absent. */
  function Sources(c: Character): (r: seq<string>)
    ensures |r| == 2
    ensures Truthy(c.videoSrc).Some? ==> r == [c.videoSrc.value, VideoPath(c.name)]
    ensures Truthy(c.videoSrc).None? ==> r == [VideoPath(c.name), SourceList.BigBuckBunny]
  {
    match Truthy(c.videoSrc)
    case Some(src) => [src, VideoPath(c.name)]
    case None => [VideoPath(c.name), SourceList.BigBuckBunny]
  }

  /** The player's title: the explicit title when truthy, else the name with
      " Highlight Reel". */
  function Title(c: Character): (r: string)
    ensures Truthy(c.videoTitle).Some? ==> r == c.videoTitle.value
    ensures Truthy(c.videoTitle).None? ==> r == c.name + " Highlight Reel"
  {
    match Truthy(c.videoTitle)
    case Some(t) => t
    case None => c.name + " Highlight Reel"
  }

  /** An unknown name without `videoSrc` leaves the player only the remote
      sample once empty entries are filtered out. */
  lemma UnknownNameKeepsOnlyRemote(c: Character)
    requires c.name !in KnownNames && Truthy(c.videoSrc).None?
    ensures SourceList.ProcessSources(Sources(c)) == [SourceList.BigBuckBunny]
  {
    VideoPathIsTable(c.name);
    SourceList.ProcessSourcesIsFilter(Sources(c));
    assert Sources(c) == [""] + [SourceList.BigBuckBunny];
    SourceList.FilterAppend([""], [SourceList.BigBuckBunny]);
    assert SourceList.FilterNonEmpty([""]) == [];
    assert SourceList.FilterNonEmpty([SourceList.BigBuckBunny]) == [SourceList.BigBuckBunny];
  }

  /** A known name without `videoSrc` keeps both entries. */
  lemma KnownNameKeepsBoth(c: Character)
    requires c.name in KnownNames && Truthy(c.videoSrc).None?
    ensures SourceList.ProcessSources(Sources(c)) == Sources(c)
  {
    VideoPathIsTable(c.name);
    SourceList.ProcessSourcesIsFilter(Sources(c));
    SourceList.FilterIdentity(Sources(c));
  }
}

=== FILE: common.dfy ===
/** Small shared vocabulary: an optional value (a JavaScript `undefined`
    or a falsy property), substring search as `String.prototype.includes`
    performs it, and `Math.max` / `Math.min` on reals. */
module Common {

  datatype Option<+T> = None | Some(value: T)

  /** `s.includes(sub)`: some window of `s` equals `sub`. */
  predicate Includes(s: string, sub: string)
  {
    exists i | 0 <= i <= |s| - |sub| :: WindowAt(s, sub, i)
  }

  /** The characters of `s` from position `i` on start with `sub`. */
  predicate WindowAt(s: string, sub: string, i: int)
  {
    0 <= i <= |s| - |sub| && s[i..i + |sub|] == sub
  }

  /** A JavaScript string property used with `||` or `? :` is falsy when it is
      missing or empty; this returns the string when it is truthy. */
  function Truthy(p: Option<string>): (r: Option<string>)
    ensures r.Some? <==> p.Some? && p.value != ""
    ensures r.Some? ==> r.value == p.value
  {
    if p.Some? && p.value != "" then p else None
  }

  /** Witness form of `Includes`: the window at `i` is `sub`. */
  lemma IncludesAt(s: string, sub: string, i: nat)
    requires i + |sub| <= |s|
    requires s[i..i + |sub|] == sub
    ensures Includes(s, sub)
  {
    assert WindowAt(s, sub, i);
  }

  function Max(a: real, b: real): (r: real)
    ensures r >= a && r >= b && (r == a || r == b)
  {
    if a >= b then a else b
  }

  function Min(a: real, b: real): (r: real)
    ensures r <= a && r <= b && (r == a || r == b)
  {
    if a <= b then a else b
  }
}

=== FILE: interpolation.dfy ===
/** The piecewise-linear `interpolate` helper of
    components/scroll-dot-animation.tsx: clamp the value into the breakpoint
    range, find the first breakpoint at or above it, and interpolate linearly
    inside that segment. `None` stands for the `NaN` the JavaScript produces
    when it reads past the end of either array. */
module Interpolation {

  import opened Common

  /** Non-decreasing breakpoints. */
  predicate Sorted(xs: seq<real>)
  {
    forall a, b :: 0 <= a < b < |xs| ==> xs[a] <= xs[b]
  }

  predicate StrictlyIncreasing(xs: seq<real>)
  {
    forall a, b :: 0 <= a < b < |xs| ==> xs[a] < xs[b]
  }

  /** `Math.max(inputRange[0], Math.min(value, inputRange[last]))`. */
  function Clamp(value: real, xs: seq<real>): (c: real)
    requires |xs| >= 1
    ensures xs[0] <= xs[|xs| - 1] ==> xs[0] <= c <= xs[|xs| - 1]
    ensures xs[0] <= value <= xs[|xs| - 1] ==> c == value
    ensures value <= xs[0] ==> c == xs[0]
    ensures xs[0] <= xs[|xs| - 1] <= value ==> c == xs[|xs| - 1]
  {
    Max(xs[0], Min(value, xs[|xs| - 1]))
  }

  /** The search loop from index `i`: the first index at or after `i` whose
      breakpoint is at or above `c`, or `|xs|` when there is none. */
  function Search(xs: seq<real>, c: real, i: nat): (r: nat)
    requires i <= |xs|
    ensures i <= r <= |xs|
    ensures forall k :: i <= k < r ==> xs[k] < c
    ensures r < |xs| ==> xs[r] >= c
    decreases |xs| - i
  {
    if i == |xs| then i
    else if xs[i] >= c then i
    else Search(xs, c, i + 1)
  }

  /** The segment's end index `i` (its start is `i - 1`). */
  function SegmentIndex(value: real, xs: seq<real>): (i: nat)
    requires |xs| >= 2
  {
    Search(xs, Clamp(value, xs), 1)
  }

  /** Position of `c` inside `[lo, hi]`, 0 for a zero-length segment. */
  function Progress(c: real, lo: real, hi: real): (p: real)
    ensures lo <= c <= hi ==> 0.0 <= p <= 1.0
    ensures hi - lo == 0.0 ==> p == 0.0
    ensures hi - lo != 0.0 ==> p * (hi - lo) == c - lo
  {
    if hi - lo == 0.0 then 0.0
    else
      DivUnit(c - lo, hi - lo);
      (c - lo) / (hi - lo)
  }

  lemma MulNonneg(x: real, y: real)
    requires x >= 0.0 && y >= 0.0
    ensures x * y >= 0.0
  {
  }

  /** A quotient of a non-negative number by a larger one lies in `[0, 1]`. */
  lemma DivUnit(n: real, d: real)
    requires d != 0.0
    ensures 0.0 <= n <= d ==> 0.0 <= n / d <= 1.0
  {
    if 0.0 <= n <= d {
      var q := n / d;
      assert q * d == n;
      assert (1.0 - q) * d == d - n;
      DivSign(q, d);
      DivSign(1.0 - q, d);
    }
  }

  /** The start of a segment has progress 0. */
  lemma ProgressAtStart(lo: real, hi: real)
    ensures Progress(lo, lo, hi) == 0.0
  {
    if hi - lo != 0.0 {
      var p := Progress(lo, lo, hi);
      assert p * (hi - lo) == 0.0;
    }
  }

  /** The end of a non-empty segment has progress 1. */
  lemma ProgressAtEnd(lo: real, hi: real)
    requires lo != hi
    ensures Progress(hi, lo, hi) == 1.0
  {
    var p := Progress(hi, lo, hi);
    assert p * (hi - lo) == hi - lo;
    assert (p - 1.0) * (hi - lo) == 0.0;
  }

  /** With a positive factor the sign of a product is the sign of the other factor. */
  lemma DivSign(x: real, d: real)
    requires d > 0.0
    ensures x * d >= 0.0 ==> x >= 0.0
  {
    if x < 0.0 {
      MulNonneg(-x, d);
    }
  }


  function Interpolate(value: real, xs: seq<real>, ys: seq<real>): (r: Option<real>)
    ensures r.Some? <==> |xs| >= 2 && SegmentIndex(value, xs) < |xs| && SegmentIndex(value, xs) < |ys|
  {
    if |xs| < 2 then None else InSegment(Clamp(value, xs), xs, ys)
  }

  /** Everything after the clamp: search, then interpolate in the segment found. */
  function InSegment(c: real, xs: seq<real>, ys: seq<real>): (r: Option<real>)
    requires |xs| >= 2
    ensures r.Some? <==> Search(xs, c, 1) < |xs| && Search(xs, c, 1) < |ys|
  {
    var i := Search(xs, c, 1);
    if i >= |xs| || i >= |ys| then None
    else
      var j := i - 1;
      var p := Progress(c, xs[j], xs[i]);
      Some(Lerp(ys[j], ys[i], p))
  }

  // ------------------------------------------------------------ index safety

  /** The clamped value never exceeds the last breakpoint, so the search stops
      inside the array: the segment index lies in `1 .. |xs| - 1`. */
  lemma SegmentInBounds(value: real, xs: seq<real>)
    requires |xs| >= 2 && xs[0] <= xs[|xs| - 1]
    ensures 1 <= SegmentIndex(value, xs) <= |xs| - 1
  {
    SearchStopsBy(xs, Clamp(value, xs), 1, |xs| - 1);
  }

  /** The search stops no later than any index whose breakpoint reaches `c`. */
  lemma {:induction false} SearchStopsBy(xs: seq<real>, c: real, i: nat, k: nat)
    requires i <= k < |xs| && xs[k] >= c
    ensures Search(xs, c, i) <= k
    decreases k - i
  {
    if i < k && xs[i] < c {
      SearchStopsBy(xs, c, i + 1, k);
    }
  }

  /** Well-formed curves always produce a number. */
  lemma Defined(value: real, xs: seq<real>, ys: seq<real>)
    requires |xs| >= 2 && xs[0] <= xs[|xs| - 1] && |ys| >= |xs|
    ensures Interpolate(value, xs, ys).Some?
  {
    SegmentInBounds(value, xs);
  }

  /** Fewer than two breakpoints never produce a number. */
  lemma UndefinedForShortInput(value: real, xs: seq<real>, ys: seq<real>)
    requires |xs| < 2
    ensures Interpolate(value, xs, ys).None?
  {
  }

  // ------------------------------------------------------------------- values

  /** The clamped value lies inside its segment, whatever the ordering of the
      other breakpoints. */
  lemma ClampedInSegment(value: real, xs: seq<real>)
    requires |xs| >= 2
    requires SegmentIndex(value, xs) < |xs|
    ensures var i := SegmentIndex(value, xs);
      xs[i - 1] <= Clamp(value, xs) <= xs[i]
  {
    var i := SegmentIndex(value, xs);
    var c := Clamp(value, xs);
    if i == 1 {
      assert c >= xs[0];
    } else {
      assert xs[i - 1] < c;
    }
  }

  /** `outputRange[i - 1] + progress * (outputRange[i] - outputRange[i - 1])`. */
  function Lerp(a: real, b: real, p: real): real
  {
    a + p * (b - a)
  }

  lemma LerpEnds(a: real, b: real)
    ensures Lerp(a, b, 0.0) == a && Lerp(a, b, 1.0) == b
  {
  }

  lemma LerpBetween(a: real, b: real, p: real)
    requires 0.0 <= p <= 1.0
    ensures Min(a, b) <= Lerp(a, b, p) <= Max(a, b)
  {
    if a <= b {
      MulNonneg(p, b - a);
      MulNonneg(1.0 - p, b - a);
      assert (1.0 - p) * (b - a) == (b - a) - p * (b - a);
    } else {
      MulNonneg(p, a - b);
      MulNonneg(1.0 - p, a - b);
      assert (1.0 - p) * (a - b) == (a - b) - p * (a - b);
      assert p * (b - a) == -(p * (a - b));
    }
  }

  /** The progress through the segment lies in `[0, 1]`, so the result lies
      between the two outputs of that segment. */
  lemma ResultInSegment(value: real, xs: seq<real>, ys: seq<real>)
    requires Interpolate(value, xs, ys).Some?
    ensures var i := SegmentIndex(value, xs);
      var r := Interpolate(value, xs, ys).value;
      Min(ys[i - 1], ys[i]) <= r <= Max(ys[i - 1], ys[i])
  {
    var i := SegmentIndex(value, xs);
    var c := Clamp(value, xs);
    ClampedInSegment(value, xs);
    var p := Progress(c, xs[i - 1], xs[i]);
    LerpBetween(ys[i - 1], ys[i], p);
  }

  /** Hence every result lies within any bounds that hold for all outputs. */
  lemma ResultWithinOutputBounds(value: real, xs: seq<real>, ys: seq<real>, lo: real, hi: real)
    requires Interpolate(value, xs, ys).Some?
    requires forall k :: 0 <= k < |ys| ==> lo <= ys[k] <= hi
    ensures lo <= Interpolate(value, xs, ys).value <= hi
  {
    ResultInSegment(value, xs, ys);
  }

  /** A zero-length segment yields its first output, without dividing. */
  lemma ZeroLengthSegment(value: real, xs: seq<real>, ys: seq<real>)
    requires Interpolate(value, xs, ys).Some?
    requires var i := SegmentIndex(value, xs); xs[i] == xs[i - 1]
    ensures Interpolate(value, xs, ys).value == ys[SegmentIndex(value, xs) - 1]
  {
  }

  /** The search from `i` stops at `k` when `k` is the first index at or after
      `i` whose breakpoint reaches `c`. */
  lemma {:induction false} SearchFinds(xs: seq<real>, c: real, i: nat, k: nat)
    requires i <= k < |xs| && xs[k] >= c
    requires forall m :: i <= m < k ==> xs[m] < c
    ensures Search(xs, c, i) == k
    decreases k - i
  {
    if i < k {
      SearchFinds(xs, c, i + 1, k);
    }
  }

  /** At or below the first breakpoint the result is the first output. */
  lemma AtOrBelowFirst(value: real, xs: seq<real>, ys: seq<real>)
    requires |xs| >= 2 && Sorted(xs) && |ys| >= |xs|
    requires value <= xs[0]
    ensures Interpolate(value, xs, ys) == Some(ys[0])
  {
    assert xs[0] <= xs[1] && xs[0] <= xs[|xs| - 1];
    var c := Clamp(value, xs);
    assert c == xs[0];
    SearchFinds(xs, c, 1, 1);
    ProgressAtStart(xs[0], xs[1]);
    LerpEnds(ys[0], ys[1]);
    assert InSegment(c, xs, ys) == Some(Lerp(ys[0], ys[1], 0.0));
  }

  /** With strictly increasing breakpoints, evaluating at breakpoint `k`
      returns output `k`. */
  lemma AtBreakpoint(xs: seq<real>, ys: seq<real>, k: nat)
    requires |xs| >= 2 && StrictlyIncreasing(xs) && |ys| >= |xs|
    requires k < |xs|
    ensures Interpolate(xs[k], xs, ys) == Some(ys[k])
  {
    assert xs[0] <= xs[k] <= xs[|xs| - 1];
    var c := Clamp(xs[k], xs);
    assert c == xs[k];
    if k == 0 {
      AtOrBelowFirst(xs[k], xs, ys);
    } else {
      SearchFinds(xs, c, 1, k);
      assert SegmentIndex(xs[k], xs) == k;
      var lo, hi := xs[k - 1], xs[k];
      assert lo < hi;
      ProgressAtEnd(lo, hi);
      LerpEnds(ys[k - 1], ys[k]);
      assert InSegment(c, xs, ys) == Some(Lerp(ys[k - 1], ys[k], 1.0));
    }
  }

  /** With strictly increasing breakpoints, at or above the last breakpoint
      the result is the last output. */
  lemma AtOrAboveLast(value: real, xs: seq<real>, ys: seq<real>)
    requires |xs| >= 2 && StrictlyIncreasing(xs) && |ys| >= |xs|
    requires value >= xs[|xs| - 1]
    ensures Interpolate(value, xs, ys) == Some(ys[|xs| - 1])
  {
    var last := |xs| - 1;
    assert xs[0] < xs[last];
    assert Clamp(value, xs) == xs[last];
    AtBreakpoint(xs, ys, last);
    assert Clamp(xs[last], xs) == xs[last];
  }
}

=== FILE: page.dfy ===
/** The home page (app/page.tsx): the cast list with its video sources, the
    section layout with `section-<k>` ids, and the navigation dots with their
    labels. */
module Page {

  import CharacterVideo
  import SourceList
  import TrailerReveal

  /** The cast, in page order: the same ten names, in the same order, that
      the character-video component tests. */
  const CastNames: seq<string> := CharacterVideo.KnownNames

  /** The shared fallback clip, also appended by the trailer sections. */
  const SampleVideo: string := TrailerReveal.SampleVideo

  /** The page's own name-to-clip chain (same shape as the one in
      `CharacterVideo`, with a different file for PRASANNA). */
  function VideoPath(name: string): string
  {
    if name == "RAJ THARUN" then "/assets/videos/raj-tharun.mov"
    else if name == "ANISH" then "/assets/videos/anish.mov"
    else if name == "KISHORE DS" then "/assets/videos/kishore.mov"
    else if name == "BHARATH SEENI" then "/assets/videos/BHARATH ANNA.mov"
    else if name == "JEFFREY" then "/assets/videos/jeffrey.mov"
    else if name == "BHARATH" then "/assets/videos/bharath.mov"
    else if name == "AMMU ABHIRAMI" then "/assets/videos/ammu.mov"
    else if name == "AARI" then "/assets/videos/aari.mov"
    else if name == "PRASANNA" then "/assets/videos/prasanna.mov"
    else if name == "SUNIL" then "/assets/videos/sunil.mov"
    else ""
  }

  /** The two chains differ on PRASANNA and nowhere else. */
  lemma PathTablesDifferOnlyForPrasanna(name: string)
    ensures VideoPath(name) == CharacterVideo.VideoPath(name) <==> name != "PRASANNA"
  {
  }

  datatype CharacterWithVideo = CharacterWithVideo(name: string, videoSources: seq<string>, videoTitle: string)

  /** `charactersWithVideos`: every character gets its clip and the sample
      clip, and a spotlight title. */
  function WithVideos(names: seq<string>): (r: seq<CharacterWithVideo>)
    ensures |r| == |names|
    ensures forall i :: 0 <= i < |names| ==> r[i].name == names[i]
    ensures forall i :: 0 <= i < |names| ==> r[i].videoSources == [VideoPath(names[i]), SampleVideo]
    ensures forall i :: 0 <= i < |names| ==> r[i].videoTitle == names[i] + " - Character Spotlight"
  {
    if |names| == 0 then []
    else [CharacterWithVideo(names[0], [VideoPath(names[0]), SampleVideo],
                             names[0] + " - Character Spotlight")]
         + WithVideos(names[1..])
  }

  lemma CastPathNonEmpty(name: string)
    requires name in CastNames
    ensures VideoPath(name) != ""
  {
  }

  /** Every cast member's player starts with two non-empty sources, so the
      player's filter keeps both. */
  lemma CastSourcesNonEmpty(i: nat)
    requires i < |CastNames|
    ensures var c := WithVideos(CastNames)[i];
      |c.videoSources| == 2 && c.videoSources[0] != "" && c.videoSources[1] != ""
    ensures var c := WithVideos(CastNames)[i];
      SourceList.ProcessSources(c.videoSources) == c.videoSources
  {
    CastPathNonEmpty(CastNames[i]);
    var c := WithVideos(CastNames)[i];
    SourceList.ProcessSourcesIsFilter(c.videoSources);
    SourceList.FilterIdentity(c.videoSources);
  }

  // ------------------------------------------------------------- layout

  /** The page's sections in document order. */
  datatype Section =
    | Intro | Trailer(film: nat) | Legacy | CharacterIntro
    | CharacterSection(cast: nat) | Director | Production | Finale

  /** The sections for `n` cast members. */
  function Layout(n: nat): (r: seq<Section>)
    ensures |r| == n + 9
  {
    [Intro, Trailer(1), Trailer(2), Trailer(3), Legacy, CharacterIntro]
    + seq(n, i requires 0 <= i => CharacterSection(i))
    + [Director, Production, Finale]
  }

  /** The number in each section's `id="section-<k>"`. */
  function SectionNumber(s: Section, n: nat): nat
  {
    match s
    case Intro => 0
    case Trailer(f) => f
    case Legacy => 4
    case CharacterIntro => 5
    case CharacterSection(i) => i + 6
    case Director => 6 + n
    case Production => 7 + n
    case Finale => 8 + n
  }

  /** Section ids are numbered by position, so `#section-<k>` addresses the
      `k`-th section. */
  lemma SectionIdsArePositions(n: nat)
    ensures forall k :: 0 <= k < |Layout(n)| ==> SectionNumber(Layout(n)[k], n) == k
  {
  }

  // ------------------------------------------------------------- dots

  /** `totalSections`: the number of navigation dots. It counts five
      sections before the cast where the layout has six, and two after it
      where the layout has three, so it falls two short and ends at Director. */
  function TotalSections(n: nat): (c: nat)
    ensures c + 2 == |Layout(n)|
    ensures Layout(n)[c - 1] == Director
  {
    5 + n + 2
  }

  /** The label chain of dot `k`. */
  function DotLabel(k: nat, names: seq<string>): string
  {
    if k == 0 then "Intro"
    else if k == 1 then "Goli Soda 1"
    else if k == 2 then "Goli Soda 2"
    else if k == 3 then "Goli Soda 1.5"
    else if k == 4 then "Legacy Continues"
    else if k == 5 then "Meet Characters"
    else if k < 6 + |names| then names[k - 6]
    else if k == 6 + |names| then "Director"
    else if k == 7 + |names| then "Production"
    else "Finale"
  }

  /** Dot `k` links to section `k`, and its label names what is there: cast
      member `i` lives in `section-(i + 6)` and dot `i + 6` carries their name. */
  lemma DotLabelsMatchSections(names: seq<string>, k: nat)
    requires k < |Layout(|names|)|
    ensures var s := Layout(|names|)[k];
      && (s.CharacterSection? ==> DotLabel(k, names) == names[s.cast])
      && (s == Director ==> DotLabel(k, names) == "Director")
      && (s == Production ==> DotLabel(k, names) == "Production")
      && (s == Finale ==> DotLabel(k, names) == "Finale")
  {
  }

  /** Cast member `i`'s dot is `i + 6` and is rendered. */
  lemma CastDot(names: seq<string>, i: nat)
    requires i < |names|
    ensures i + 6 < TotalSections(|names|)
    ensures DotLabel(i + 6, names) == names[i]
    ensures Layout(|names|)[i + 6] == CharacterSection(i)
  {
  }

  /** As written, the dots stop at the Director section: the Production and
      Finale sections get no dot, so the "Production" and "Finale" labels are
      never shown. */
  lemma DotsStopAtDirector(names: seq<string>)
    ensures TotalSections(|names|) == |Layout(|names|)| - 2
    ensures DotLabel(TotalSections(|names|) - 1, names) == "Director"
    ensures forall k :: 0 <= k < TotalSections(|names|) ==>
      Layout(|names|)[k] != Production && Layout(|names|)[k] != Finale
  {
  }

  /** One dot per section, as the label chain and the numbering expect. */
  function DotCount(n: nat): (c: nat)
    ensures c == |Layout(n)|
  {
    6 + n + 3
  }

  /** With one dot per section every section, Production and Finale
      included, is reachable from a dot that carries its label. */
  lemma EverySectionHasADot(names: seq<string>)
    ensures forall s :: s in Layout(|names|) ==> SectionNumber(s, |names|) < DotCount(|names|)
    ensures DotLabel(SectionNumber(Production, |names|), names) == "Production"
    ensures DotLabel(SectionNumber(Finale, |names|), names) == "Finale"
  {
    SectionIdsArePositions(|names|);
  }
}

=== FILE: player_findings.dfy ===
/** The `.catch` of a manual play as the code is written. The callback was
    created by the click's render, so the `handleVideoError` it calls reads
    the source index of that render (`issuedAt`), not the current one. */
module PlayerFindings {

  import opened Common
  import opened VideoPlayer
  import PlayerProperties

  function OnPlayRejectedAsWritten(s: Player): (r: Player)
    ensures r.pending.None?
    ensures s.pending.Some? ==> !r.isPlaying
    ensures s.pending.Some? && s.pending.value.Manual? && s.pending.value.issuedAt < s.LastIndex() ==>
      r.idx == s.pending.value.issuedAt + 1
    ensures s.pending.Some? && s.pending.value.Manual? && s.pending.value.issuedAt >= s.LastIndex() ==>
      r.error && r.idx == s.idx
    ensures s.pending == Some(Autoplay) ==> r == s.(isPlaying := false, pending := None)
    ensures s.pending.None? ==> r == s
  {
    match s.pending
    case None => s
    case Some(Autoplay) => s.(isPlaying := false, pending := None)
    case Some(Manual(at)) => FailSourceAt(s.(isPlaying := false, pending := None), at)
  }

  /** When the rejected request belongs to the source still playing, the code
      as written and the model agree. */
  lemma AgreesForCurrentSource(s: Player)
    requires s.pending.Some? ==> s.pending.value.Autoplay? || s.pending.value.issuedAt == s.idx
    ensures OnPlayRejectedAsWritten(s) == OnPlayRejected(s)
  {
  }

  /** Counterexample: three sources, a manual play issued on the first, both
      the first and second sources fail before the request is rejected; the
      rejection then sends the player back to the second source, which has
      already failed. */
  lemma RejectionRewindsIndex()
    ensures var s0 := Init(Some(["a.mp4", "b.mp4", "c.mp4"]), Some(false));
      var s2 := Run(s0, [TogglePlay, MediaError, MediaError]);
      && s2.idx == 2 && s2.pending == Some(Manual(0))
      && OnPlayRejectedAsWritten(s2).idx == 1
      && OnPlayRejectedAsWritten(s2).idx < s2.idx
  {
    var s0 := Init(Some(["a.mp4", "b.mp4", "c.mp4"]), Some(false));
    assert s0.sources == ["a.mp4", "b.mp4", "c.mp4"];
    var es := [TogglePlay, MediaError, MediaError];
    assert es[1..] == [MediaError, MediaError];
    assert es[1..][1..] == [MediaError];
    var t := Step(s0, TogglePlay);
    assert t.pending == Some(Manual(0));
    assert Run(s0, es) == Run(t, [MediaError, MediaError]);
  }

  /** The corrected handler never moves backwards and never skips a source
      that has not failed: it advances at most one past the rejected source. */
  lemma CorrectedRejectionAdvancesAtMostOnce(s: Player)
    requires PlayerProperties.Inv(s)
    requires s.pending.Some? && s.pending.value.Manual?
    ensures OnPlayRejected(s).idx >= s.idx
    ensures OnPlayRejected(s).idx <= if s.idx == s.pending.value.issuedAt then s.idx + 1 else s.idx
  {
  }
}

=== FILE: player_properties.dfy ===
/** Properties of the `SafeVideoPlayer` controller over single events and
    over whole event sequences. */
module PlayerProperties {

  import opened Common
  import opened VideoPlayer

  /** What every reachable state satisfies: the index addresses a source (or is
      0 for an empty list), a play request in flight is accounted for by the
      flag that issued it, and an unmuted player is never silent. */
  predicate Inv(s: Player)
  {
    && (|s.sources| == 0 ==> s.idx == 0)
    && (|s.sources| > 0 ==> s.idx < |s.sources|)
    && (!s.isMuted ==> s.volume != 0.0)
    && match s.pending
       case None => true
       case Some(Autoplay) => s.autoplayAttempted
       case Some(Manual(at)) => at <= s.idx && s.userInteracted
  }

  /** The user's controls, as opposed to events raised by the browser. */
  predicate IsUserEvent(e: Event)
  {
    e.TogglePlay? || e.ToggleMute? || e.SetVolume? || e.Seek? || e.Skip?
  }

  lemma InitInv(videoSources: Option<seq<string>>, autoplay: Option<bool>)
    ensures Inv(Init(videoSources, autoplay))
  {
  }

  lemma StepInv(s: Player, e: Event)
    requires Inv(s)
    ensures Inv(Step(s, e))
  {
  }

  lemma {:induction false} RunInv(s: Player, es: seq<Event>)
    requires Inv(s)
    ensures Inv(Run(s, es))
    decreases |es|
  {
    if |es| > 0 {
      StepInv(s, es[0]);
      RunInv(Step(s, es[0]), es[1..]);
    }
  }

  /** From mount, whatever the events, an unmuted player has a non-zero volume. */
  lemma UnmutedIsAudible(videoSources: Option<seq<string>>, autoplay: Option<bool>, es: seq<Event>)
    ensures var r := Run(Init(videoSources, autoplay), es);
      !r.isMuted ==> r.volume != 0.0
  {
    InitInv(videoSources, autoplay);
    RunInv(Init(videoSources, autoplay), es);
  }

  // ---------------------------------------------------------------- sources

  /** Only two things move to the next source: an `error` event on the
      `<video>` element and the rejection of a manual play. A run with
      neither (autoplay rejections included) stays on the current source. */
  lemma {:induction false} NoFallbackWithoutElementErrors(s: Player, es: seq<Event>)
    requires s.pending.None? || s.pending.value.Autoplay?
    requires forall k :: 0 <= k < |es| ==> es[k] != MediaError && es[k] != TogglePlay
    ensures Run(s, es).idx == s.idx
    decreases |es|
  {
    if |es| > 0 {
      NoManualRequestStaysPut(s, es[0]);
      NoFallbackWithoutElementErrors(Step(s, es[0]), es[1..]);
    }
  }

  lemma NoManualRequestStaysPut(s: Player, e: Event)
    requires s.pending.None? || s.pending.value.Autoplay?
    requires e != MediaError && e != TogglePlay
    ensures Step(s, e).idx == s.idx
    ensures Step(s, e).pending.None? || Step(s, e).pending.value.Autoplay?
  {
    match e {
      case Visibility(_) =>
      case PlayResolved =>
      case PlayRejected =>
      case MetadataLoaded(_) =>
      case TimeUpdate(_) =>
      case MediaPlay =>
      case MediaPause =>
      case MediaEnded =>
      case Waiting =>
      case Playing =>
      case ToggleMute =>
      case SetVolume(_) =>
      case Seek(_) =>
      case Skip(_) =>
    }
  }

  /** A media error moves to the next source, or, at the last source, latches
      the error and keeps the index. */
  lemma MediaErrorAdvancesOrLatches(s: Player)
    requires Inv(s)
    ensures var r := Step(s, MediaError);
      && (s.idx < |s.sources| - 1 ==> r.idx == s.idx + 1 && r.error == s.error)
      && (s.idx >= |s.sources| - 1 ==> r.error && r.idx == s.idx)
      && r.idx < |s.sources| + 1
  {
  }

  lemma {:induction false} RunIndexNeverDecreases(s: Player, es: seq<Event>)
    ensures Run(s, es).idx >= s.idx
    decreases |es|
  {
    if |es| > 0 {
      RunIndexNeverDecreases(Step(s, es[0]), es[1..]);
    }
  }

  /** Starting from mount, the index never passes the last source. */
  lemma RunIndexInBounds(videoSources: Option<seq<string>>, autoplay: Option<bool>, es: seq<Event>)
    ensures var r := Run(Init(videoSources, autoplay), es);
      |r.sources| >= 1 ==> r.idx <= |r.sources| - 1
  {
    InitInv(videoSources, autoplay);
    RunInv(Init(videoSources, autoplay), es);
  }

  /** The source list never changes after mount. */
  lemma {:induction false} RunKeepsSources(s: Player, es: seq<Event>)
    ensures Run(s, es).sources == s.sources && Run(s, es).autoplay == s.autoplay
    decreases |es|
  {
    if |es| > 0 {
      RunKeepsSources(Step(s, es[0]), es[1..]);
    }
  }

  /** `k` media errors in a row. */
  function Errors(k: nat): (es: seq<Event>)
    ensures |es| == k && forall i :: 0 <= i < k ==> es[i] == MediaError
  {
    if k == 0 then [] else [MediaError] + Errors(k - 1)
  }

  /** If every remaining source fails, the error panel is shown and the index
      stops at the last source. */
  lemma {:induction false} AllSourcesFail(s: Player)
    requires Inv(s) && |s.sources| >= 1
    ensures var r := Run(s, Errors(|s.sources| - s.idx));
      r.error && r.idx == |s.sources| - 1
    decreases |s.sources| - s.idx
  {
    var k := |s.sources| - s.idx;
    var es := Errors(k);
    assert es[0] == MediaError;
    assert es[1..] == Errors(k - 1);
    var s1 := Step(s, MediaError);
    if s.idx == |s.sources| - 1 {
      assert k == 1;
      assert Run(s1, es[1..]) == s1;
    } else {
      StepInv(s, MediaError);
      assert s1.idx == s.idx + 1;
      AllSourcesFail(s1);
      assert |s1.sources| - s1.idx == k - 1;
      ErrorLatchRun(Run(s1, Errors(k - 1)), []);
    }
  }

  /** Once set, the error flag stays set under every event except a
      `loadedmetadata` from the element, whose handler clears it. */
  lemma ErrorLatch(s: Player, e: Event)
    requires s.error && !e.MetadataLoaded?
    ensures Step(s, e).error
  {
  }

  lemma {:induction false} ErrorLatchRun(s: Player, es: seq<Event>)
    requires s.error
    requires forall i :: 0 <= i < |es| ==> !es[i].MetadataLoaded?
    ensures Run(s, es).error
    decreases |es|
  {
    if |es| > 0 {
      ErrorLatch(s, es[0]);
      ErrorLatchRun(Step(s, es[0]), es[1..]);
    }
  }

  /** While the error panel is shown none of the user's controls changes anything. */
  lemma ErrorFreezesControls(s: Player, e: Event)
    requires s.error && IsUserEvent(e)
    ensures Step(s, e) == s
  {
  }

  // ------------------------------------------------------- play in flight

  /** While a play request is pending, toggling only records the interaction. */
  lemma PendingToggleOnlyRecordsInteraction(s: Player)
    requires !s.error && s.pending.Some?
    ensures Step(s, TogglePlay) == s.(userInteracted := true)
  {
  }

  /** Two toggles in quick succession from a paused player issue exactly one
      play request and no pause. */
  lemma DoubleToggleIssuesOnePlay(s: Player)
    requires !s.error && s.pending.None? && !s.isPlaying
    ensures var r := Step(Step(s, TogglePlay), TogglePlay);
      r == s.(userInteracted := true, pending := Some(Manual(s.idx)))
  {
  }

  /** While a play request is pending, no visibility change pauses the player
      or issues another request. */
  lemma PendingVisibilityNoPause(s: Player, v: bool)
    requires Inv(s) && s.pending.Some?
    ensures Step(s, Visibility(v)).isPlaying == s.isPlaying
    ensures Step(s, Visibility(v)).pending == s.pending
  {
  }

  /** Settling a request always clears the in-flight marker; a resolved
      request is playing, a rejected one is not. */
  lemma SettleClearsPending(s: Player)
    requires s.pending.Some?
    ensures Step(s, PlayResolved).pending.None? && Step(s, PlayResolved).isPlaying
    ensures Step(s, PlayRejected).pending.None? && !Step(s, PlayRejected).isPlaying
  {
  }

  /** A rejected autoplay leaves the source alone; a rejected manual play of
      the current source is handled as a media error of that source. */
  lemma RejectionOutcome(s: Player)
    requires Inv(s) && s.pending.Some?
    ensures s.pending == Some(Autoplay) ==>
      Step(s, PlayRejected) == s.(isPlaying := false, pending := None)
    ensures s.pending == Some(Manual(s.idx)) ==>
      Step(s, PlayRejected) == Step(s.(isPlaying := false, pending := None), MediaError)
  {
  }

  // ---------------------------------------------------------------- autoplay

  /** The latch is never reset. */
  lemma AutoplayLatchStays(s: Player, e: Event)
    requires s.autoplayAttempted
    ensures Step(s, e).autoplayAttempted
  {
  }

  /** The attempt sets the latch, forces mute and issues the request, and it
      fires only when visible, enabled, not playing and before any manual
      control. */
  lemma AutoplayAttempt(s: Player, e: Event)
    requires Inv(s)
    ensures IssuesAutoplay(s, e) ==>
      var r := Step(s, e);
      r.autoplayAttempted && r.isMuted && r.pending == Some(Autoplay) && s.pending.None?
    ensures !s.autoplayAttempted && Step(s, e).autoplayAttempted ==> IssuesAutoplay(s, e)
    ensures IssuesAutoplay(s, e) ==>
      e == Visibility(true) && s.autoplay && !s.isPlaying && !s.userInteracted && !s.error
  {
  }

  /** How many autoplay requests a sequence of events issues. */
  function AutoplayCount(s: Player, es: seq<Event>): nat
    decreases |es|
  {
    if |es| == 0 then 0
    else (if IssuesAutoplay(s, es[0]) then 1 else 0) + AutoplayCount(Step(s, es[0]), es[1..])
  }

  lemma {:induction false} NoAutoplayAfterLatch(s: Player, es: seq<Event>)
    requires s.autoplayAttempted
    ensures AutoplayCount(s, es) == 0
    decreases |es|
  {
    if |es| > 0 {
      AutoplayLatchStays(s, es[0]);
      NoAutoplayAfterLatch(Step(s, es[0]), es[1..]);
    }
  }

  /** Autoplay is attempted at most once per player, however often it enters
      and leaves the viewport. */
  lemma {:induction false} AutoplayAtMostOnce(s: Player, es: seq<Event>)
    ensures AutoplayCount(s, es) <= 1
    decreases |es|
  {
    if |es| > 0 {
      var s1 := Step(s, es[0]);
      if IssuesAutoplay(s, es[0]) {
        NoAutoplayAfterLatch(s1, es[1..]);
      } else {
        AutoplayAtMostOnce(s1, es[1..]);
      }
    }
  }

  /** Once the attempt was made, leaving the viewport no longer pauses. */
  lemma NoPauseOnLeaveAfterAttempt(s: Player)
    requires s.autoplayAttempted
    ensures Step(s, Visibility(false)) == s
  {
  }

  /** Before the attempt, leaving the viewport pauses a playing player unless
      a request is in flight. */
  lemma PauseOnLeaveBeforeAttempt(s: Player)
    requires !s.error && !s.autoplayAttempted && s.isPlaying
    ensures !Step(s, Visibility(false)).isPlaying <==> s.pending.None?
  {
  }

  // ------------------------------------------------------------ mute, volume

  /** Silencing with the slider then unmuting restores the audible default. */
  lemma SilenceThenUnmute(s: Player)
    requires !s.error
    ensures var r := Step(Step(s, SetVolume(0.0)), ToggleMute);
      !r.isMuted && r.volume == RestoredVolume
  {
  }

  /** Unmuting a non-silent player keeps its volume. */
  lemma UnmuteKeepsVolume(s: Player)
    requires !s.error && s.isMuted && s.volume != 0.0
    ensures Step(s, ToggleMute).volume == s.volume && !Step(s, ToggleMute).isMuted
  {
  }

  /** Muting never changes the volume. */
  lemma MuteKeepsVolume(s: Player)
    requires !s.error && !s.isMuted
    ensures Step(s, ToggleMute).volume == s.volume && Step(s, ToggleMute).isMuted
  {
  }

  // ---------------------------------------------------------- seek and skip

  /** Skipping past the end stops at the end: from two seconds before the end,
      a ten-second skip lands exactly on the duration. */
  lemma SkipPastEndClamps(s: Player)
    requires !s.error && s.duration >= 2.0 && s.currentTime == s.duration - 2.0
    ensures Step(s, Skip(10.0)).currentTime == s.duration
  {
  }

  /** Skip has no duration guard: before metadata arrives every skip lands on 0. */
  lemma SkipBeforeMetadata(s: Player, seconds: real)
    requires !s.error && s.duration == 0.0
    ensures Step(s, Skip(seconds)).currentTime == 0.0
    ensures Step(s, Skip(seconds)).userInteracted
  {
  }

  /** Seeking before metadata arrives changes nothing at all. */
  lemma SeekBeforeMetadata(s: Player, fraction: real)
    requires s.duration == 0.0
    ensures Step(s, Seek(fraction)) == s
  {
  }

  // --------------------------------------------------------------- scenarios

  /** Two bad sources then a good one: two errors land on the third source
      without showing the error panel. */
  lemma TwoBadOneGood()
    ensures var s := Run(Init(Some(["bad1.mp4", "bad2.mp4", "good.mp4"]), Some(true)),
                         [MediaError, MediaError]);
      s.idx == 2 && !s.error && s.sources[s.idx] == "good.mp4"
  {
    var s0 := Init(Some(["bad1.mp4", "bad2.mp4", "good.mp4"]), Some(true));
    assert s0.sources == ["bad1.mp4", "bad2.mp4", "good.mp4"];
    var es := [MediaError, MediaError];
    assert es[1..] == [MediaError];
    assert Run(s0, es) == Run(Step(s0, MediaError), [MediaError]);
  }

  /** A list that is empty after filtering mounts a player without a source;
      the first element error (or rejected manual play) shows the error
      panel. A rejected autoplay does not. */
  lemma EmptyListFailsOnFirstError(xs: seq<string>)
    requires forall k :: 0 <= k < |xs| ==> xs[k] == ""
    ensures var s := Init(Some(xs), None);
      |s.sources| == 0 && !s.error && Step(s, MediaError).error
  {
    SourceList.FilterAllEmpty(xs);
  }
}

=== FILE: scroll_dot.dfy ===
/** The scroll subscription of `ScrollDotAnimation`
    (components/scroll-dot-animation.tsx): a one-way `hasScrolled` latch and
    the seven curves it drives once the latch is set. */
module ScrollDot {

  import opened Common
  import Interpolation

  /** A curve's breakpoints and outputs, as passed to `interpolate`. */
  datatype Curve = Curve(input: seq<real>, output: seq<real>)
  {
    /** Strictly increasing breakpoints with one output each. */
    predicate WellFormed()
    {
      |input| >= 2 && Interpolation.StrictlyIncreasing(input) && |output| == |input|
    }
  }

  const DotSizeCurve: Curve := Curve([0.0, 0.5, 1.0], [5.0, 100.0, 300.0])
  const DotOpacityCurve: Curve := Curve([0.0, 0.5, 0.8, 1.0], [1.0, 1.0, 0.5, 0.0])
  const RotateCurve: Curve := Curve([0.0, 1.0], [0.0, 720.0])
  const BlurCurve: Curve := Curve([0.0, 0.5, 1.0], [0.0, 5.0, 20.0])
  const LineOpacityCurve: Curve := Curve([0.0, 0.3, 0.6], [0.0, 0.7, 0.0])
  const TextOpacityCurve: Curve := Curve([0.0, 0.3, 0.5, 0.8], [0.0, 0.0, 1.0, 0.0])
  const TextScaleCurve: Curve := Curve([0.0, 0.3, 0.5, 0.8], [0.5, 0.8, 1.0, 1.5])

  /** The progress above which the user counts as having scrolled. */
  const ScrollThreshold: real := 0.01

  /** The font size is this fraction of the dot size. */
  const FontRatio: real := 0.15

  lemma CurvesWellFormed()
    ensures DotSizeCurve.WellFormed() && DotOpacityCurve.WellFormed() && RotateCurve.WellFormed()
    ensures BlurCurve.WellFormed() && LineOpacityCurve.WellFormed()
    ensures TextOpacityCurve.WellFormed() && TextScaleCurve.WellFormed()
  {
  }

  /** `interpolate` on a well-formed curve, which always yields a number. */
  function Eval(c: Curve, v: real): (r: real)
    requires c.WellFormed()
    ensures Interpolation.Interpolate(v, c.input, c.output) == Some(r)
  {
    Interpolation.Defined(v, c.input, c.output);
    Interpolation.Interpolate(v, c.input, c.output).value
  }

  datatype DotState = DotState(
    hasScrolled: bool,
    dotSize: real,
    dotOpacity: real,
    rotateZ: real,
    blurAmount: real,
    lineOpacity: real,
    textOpacity: real,
    textScale: real,
    fontSize: real)

  /** The state before any scroll progress is reported. */
  const Initial: DotState := DotState(false, 5.0, 1.0, 0.0, 0.0, 0.0, 0.0, 0.5, 0.75)

  /** One `scrollYProgress` change. The subscription was created with the
      previous `hasScrolled`, so the value that sets the latch does not yet
      move the curves; every later value does. */
  function OnProgress(s: DotState, v: real): (r: DotState)
    ensures r.hasScrolled <==> s.hasScrolled || v > ScrollThreshold
    ensures !s.hasScrolled ==> r == s.(hasScrolled := r.hasScrolled)
    ensures s.hasScrolled ==> r.dotSize == Eval(DotSizeCurve, v) && r.fontSize == r.dotSize * FontRatio
  {
    CurvesWellFormed();
    var latched := s.hasScrolled || v > ScrollThreshold;
    if s.hasScrolled then
      DotState(latched,
        Eval(DotSizeCurve, v), Eval(DotOpacityCurve, v), Eval(RotateCurve, v),
        Eval(BlurCurve, v), Eval(LineOpacityCurve, v), Eval(TextOpacityCurve, v),
        Eval(TextScaleCurve, v), Eval(DotSizeCurve, v) * FontRatio)
    else s.(hasScrolled := latched)
  }

  function RunProgress(s: DotState, vs: seq<real>): DotState
    decreases |vs|
  {
    if |vs| == 0 then s else RunProgress(OnProgress(s, vs[0]), vs[1..])
  }

  /** The latch is set by the first progress value above the threshold and is
      never cleared afterwards. */
  lemma {:induction false} LatchNeverResets(s: DotState, vs: seq<real>)
    ensures RunProgress(s, vs).hasScrolled <==>
      s.hasScrolled || exists k :: 0 <= k < |vs| && vs[k] > ScrollThreshold
    decreases |vs|
  {
    if |vs| > 0 {
      LatchNeverResets(OnProgress(s, vs[0]), vs[1..]);
      if exists k :: 0 <= k < |vs| && vs[k] > ScrollThreshold {
        var k :| 0 <= k < |vs| && vs[k] > ScrollThreshold;
        if k > 0 {
          assert vs[1..][k - 1] > ScrollThreshold;
        }
      }
      if exists k :: 0 <= k < |vs[1..]| && vs[1..][k] > ScrollThreshold {
        var k :| 0 <= k < |vs[1..]| && vs[1..][k] > ScrollThreshold;
        assert vs[k + 1] > ScrollThreshold;
      }
    }
  }

  /** Once scrolling has begun, the dot's size stays between its smallest and
      largest keyframe and every opacity stays in `[0, 1]`. */
  lemma AnimatedValuesInRange(s: DotState, v: real)
    requires s.hasScrolled
    ensures var r := OnProgress(s, v);
      && 5.0 <= r.dotSize <= 300.0
      && 0.0 <= r.dotOpacity <= 1.0
      && 0.0 <= r.textOpacity <= 1.0
      && 0.0 <= r.lineOpacity <= 0.7
      && 0.0 <= r.rotateZ <= 720.0
  {
    CurvesWellFormed();
    EvalWithin(DotSizeCurve, v, 5.0, 300.0);
    EvalWithin(DotOpacityCurve, v, 0.0, 1.0);
    EvalWithin(TextOpacityCurve, v, 0.0, 1.0);
    EvalWithin(LineOpacityCurve, v, 0.0, 0.7);
    EvalWithin(RotateCurve, v, 0.0, 720.0);
  }

  /** A curve's value respects any bounds that hold for all its outputs. */
  lemma EvalWithin(c: Curve, v: real, lo: real, hi: real)
    requires c.WellFormed()
    requires forall k :: 0 <= k < |c.output| ==> lo <= c.output[k] <= hi
    ensures lo <= Eval(c, v) <= hi
  {
    Interpolation.ResultWithinOutputBounds(v, c.input, c.output, lo, hi);
  }

  /** At the end of the scroll range the dot has grown to 300 and faded out. */
  lemma EndOfRange(s: DotState, v: real)
    requires s.hasScrolled && v >= 1.0
    ensures OnProgress(s, v).dotSize == 300.0 && OnProgress(s, v).dotOpacity == 0.0
  {
    CurvesWellFormed();
    Interpolation.AtOrAboveLast(v, DotSizeCurve.input, DotSizeCurve.output);
    Interpolation.AtOrAboveLast(v, DotOpacityCurve.input, DotOpacityCurve.output);
  }
}

=== FILE: source_list.dfy ===
/** The player's effective source list (`processedVideoSources` in
    components/safe-video-player.tsx): empty strings are dropped, every other
    entry is kept in order. Nothing is deduplicated. */
module SourceList {

  import opened Common

  /** The one remote fallback the repository uses when nothing else is given. */
  const BigBuckBunny: string :=
    "https://commondatastorage.googleapis.com/gtv-videos-bucket/sample/BigBuckBunny.mp4"

  /** `src && src.length > 0`: the only entries the filter removes are empty. */
  predicate Kept(src: string)
  {
    |src| > 0
  }

  /** True when `src` is a root-relative local path (starts with one `/`, is not
      protocol-relative and not an http(s) URL). */
  predicate IsLocalPath(src: string)
  {
    |src| >= 1 && src[0] == '/' && !(|src| >= 2 && src[1] == '/')
  }

  /** The per-entry map step. Both of its branches return the entry unchanged. */
  function Normalize(src: string): (r: string)
    ensures r == src
  {
    if IsLocalPath(src) then src else src
  }

  /** Order-preserving removal of the empty entries. */
  function FilterNonEmpty(xs: seq<string>): (r: seq<string>)
    ensures |r| <= |xs|
    ensures forall k :: 0 <= k < |r| ==> Kept(r[k])
    ensures forall x :: x in r <==> x in xs && Kept(x)
  {
    if |xs| == 0 then []
    else if Kept(xs[0]) then [xs[0]] + FilterNonEmpty(xs[1..])
    else FilterNonEmpty(xs[1..])
  }

  /** Apply `Normalize` to every entry. */
  function MapNormalize(xs: seq<string>): (r: seq<string>)
    ensures |r| == |xs|
    ensures forall k :: 0 <= k < |xs| ==> r[k] == Normalize(xs[k])
  {
    if |xs| == 0 then [] else [Normalize(xs[0])] + MapNormalize(xs[1..])
  }

  /** `processedVideoSources`: filter, then map. */
  function ProcessSources(videoSources: seq<string>): seq<string>
  {
    MapNormalize(FilterNonEmpty(videoSources))
  }

  /** The `videoSources` prop defaults to the single remote sample when it is
      left undefined. */
  function SourcesProp(videoSources: Option<seq<string>>): (r: seq<string>)
    ensures videoSources.None? ==> r == [BigBuckBunny]
    ensures videoSources.Some? ==> r == videoSources.value
  {
    match videoSources
    case None => [BigBuckBunny]
    case Some(v) => v
  }

  /** The map step changes nothing: the effective list is exactly the filtered list. */
  lemma {:induction false} ProcessSourcesIsFilter(xs: seq<string>)
    ensures ProcessSources(xs) == FilterNonEmpty(xs)
  {
    var f := FilterNonEmpty(xs);
    var m := MapNormalize(f);
    assert |m| == |f|;
    forall k | 0 <= k < |f| ensures m[k] == f[k] {
    }
  }

  /** Filtering distributes over concatenation, which pins down that the
      relative order of the kept entries is preserved. */
  lemma {:induction false} FilterAppend(a: seq<string>, b: seq<string>)
    ensures FilterNonEmpty(a + b) == FilterNonEmpty(a) + FilterNonEmpty(b)
  {
    if |a| == 0 {
      assert a + b == b;
    } else {
      assert (a + b)[0] == a[0];
      assert (a + b)[1..] == a[1..] + b;
      FilterAppend(a[1..], b);
    }
  }

  /** A list with no empty entry passes through unchanged, and only such a list does. */
  lemma {:induction false} FilterIdentity(xs: seq<string>)
    ensures FilterNonEmpty(xs) == xs <==> forall k :: 0 <= k < |xs| ==> Kept(xs[k])
  {
    if |xs| == 0 {
    } else {
      FilterIdentity(xs[1..]);
      if !Kept(xs[0]) {
        assert |FilterNonEmpty(xs)| < |xs|;
      } else {
        assert xs == [xs[0]] + xs[1..];
        if FilterNonEmpty(xs) == xs {
          assert FilterNonEmpty(xs[1..]) == xs[1..];
        }
      }
    }
  }

  /** Filtering twice is filtering once. */
  lemma FilterIdempotent(xs: seq<string>)
    ensures FilterNonEmpty(FilterNonEmpty(xs)) == FilterNonEmpty(xs)
  {
    FilterIdentity(FilterNonEmpty(xs));
  }

  /** A list of empty strings filters to nothing. */
  lemma {:induction false} FilterAllEmpty(xs: seq<string>)
    requires forall k :: 0 <= k < |xs| ==> !Kept(xs[k])
    ensures FilterNonEmpty(xs) == []
  {
    if |xs| > 0 {
      assert forall k :: 0 <= k < |xs[1..]| ==> xs[1..][k] == xs[k + 1];
      FilterAllEmpty(xs[1..]);
    }
  }

  /** The number of entries removed is the number of empty strings. */
  function CountEmpty(xs: seq<string>): nat
  {
    if |xs| == 0 then 0 else (if xs[0] == "" then 1 else 0) + CountEmpty(xs[1..])
  }

  lemma {:induction false} FilterLength(xs: seq<string>)
    ensures |FilterNonEmpty(xs)| == |xs| - CountEmpty(xs)
  {
    if |xs| > 0 {
      FilterLength(xs[1..]);
    }
  }
}

=== FILE: trailer_reveal.dfy ===
/** `TrailerReveal` (components/trailer-reveal.tsx): the source list handed
    to the player, which appends a local trailer chosen by the year in the
    title and the shared sample clip, and the row of info tags. */
module TrailerReveal {

  import opened Common

  const Trailer1: string := "/assets/videos/trailer-1.mp4"
  const Trailer2: string := "/assets/videos/trailer-2.mp4"
  const Trailer3: string := "/assets/videos/trailer-3.mp4"
  const SampleVideo: string := "/assets/videos/sample-video.mp4"

  /** The local trailer for a title: the first year found in the order 2014, 2018. */
  function LocalTrailer(title: string): string
  {
    if Includes(title, "2014") then Trailer1
    else if Includes(title, "2018") then Trailer2
    else Trailer3
  }

  /** `processedVideoSources`: the caller's list, then the local trailer, then
      the sample clip. Nothing is removed or deduplicated. */
  function TrailerSources(title: string, videoSources: seq<string>): (r: seq<string>)
    ensures |r| == |videoSources| + 2
    ensures r[..|videoSources|] == videoSources
    ensures r[|r| - 1] == SampleVideo
    ensures Includes(title, "2014") ==> r[|r| - 2] == Trailer1
    ensures !Includes(title, "2014") && Includes(title, "2018") ==> r[|r| - 2] == Trailer2
    ensures !Includes(title, "2014") && !Includes(title, "2018") ==> r[|r| - 2] == Trailer3
  {
    videoSources + [LocalTrailer(title), SampleVideo]
  }

  /** The title shown by the player: the section's title, unchanged, then
      the " - Official Trailer" suffix. */
  function PlayerTitle(title: string): (r: string)
    ensures |r| == |title| + |" - Official Trailer"|
    ensures r[..|title|] == title && r[|title|..] == " - Official Trailer"
  {
    title + " - Official Trailer"
  }

  /** The `reverse` prop after its default (`false`) is applied. */
  function Reverse(reverse: Option<bool>): bool
  {
    reverse.Some? && reverse.value
  }

  /** `reverse ? "2018" : reverse === false ? "2014" : "2024"` on the defaulted prop. */
  function YearTag(reverse: Option<bool>): string
  {
    var rev := Reverse(reverse);
    if rev then "2018" else if rev == false then "2014" else "2024"
  }

  /** The five info tags. */
  function Tags(reverse: Option<bool>): (r: seq<string>)
    ensures |r| == 5 && r[0] == YearTag(reverse)
    ensures r[1..4] == ["Tamil", "Action", "Drama"]
    ensures r[4] == (if Reverse(reverse) then "Hotstar" else "Theatrical Release")
  {
    [YearTag(reverse), "Tamil", "Action", "Drama",
     if Reverse(reverse) then "Hotstar" else "Theatrical Release"]
  }

  /** The year tag is "2018" exactly for a reversed trailer and "2014"
      otherwise; the "2024" branch cannot be reached once the default applies. */
  lemma YearTagChoice(reverse: Option<bool>)
    ensures YearTag(reverse) == "2018" <==> Reverse(reverse)
    ensures YearTag(reverse) == "2014" <==> !Reverse(reverse)
    ensures YearTag(reverse) != "2024"
  {
  }

  /** A title without some character of `sub` cannot include `sub`. */
  lemma {:induction false} MissingCharExcludes(s: string, sub: string, k: nat)
    requires k < |sub| && sub[k] !in s
    ensures !Includes(s, sub)
  {
    forall i | 0 <= i <= |s| - |sub|
      ensures !WindowAt(s, sub, i)
    {
      assert s[i + k] in s;
      assert s[i..i + |sub|][k] == s[i + k] != sub[k];
    }
  }

  /** "2014" wins over "2018" when a title mentions both. */
  lemma Year2014HasPriority(title: string)
    requires Includes(title, "2014") && Includes(title, "2018")
    ensures LocalTrailer(title) == Trailer1
  {
  }

  /** Nothing is deduplicated: the first trailer section of the page already
      lists `trailer-1.mp4`, and its player receives it twice. */
  lemma FirstTrailerRepeatsLocalFile()
    ensures var r := TrailerSources("Goli Soda (2014)",
                                    ["/assets/videos/gs1-vd.mp4", "/assets/videos/trailer-1.mp4"]);
      r == ["/assets/videos/gs1-vd.mp4", Trailer1, Trailer1, SampleVideo]
  {
    IncludesAt("Goli Soda (2014)", "2014", 11);
  }

  /** The third trailer's title names neither 2014 nor 2018, so it falls back
      to `trailer-3.mp4`; it passes no `reverse`, so it is tagged "2014". */
  lemma RisingTrailer()
    ensures LocalTrailer("Goli Soda Rising (2024)") == Trailer3
    ensures Tags(None)[0] == "2014"
  {
    assert '1' !in "Goli Soda Rising (2024)";
    MissingCharExcludes("Goli Soda Rising (2024)", "2014", 2);
    MissingCharExcludes("Goli Soda Rising (2024)", "2018", 2);
  }
}

=== FILE: video_player.dfy ===
/** The playback controller of `SafeVideoPlayer`
    (components/safe-video-player.tsx), after mount, as an immutable state
    record and one pure transition per event.

    Browser objects are abstracted into events: the IntersectionObserver
    callback becomes `Visibility`, the promise returned by `play()` settles as
    `PlayResolved` / `PlayRejected`, and the `<video>` element's listeners
    become `MediaError`, `MetadataLoaded`, `TimeUpdate`, `MediaPlay`,
    `MediaPause`, `MediaEnded`, `Waiting` and `Playing`. The user's controls are
    `TogglePlay`, `ToggleMute`, `SetVolume`, `Seek` and `Skip`.

    The `<video>` element (and so `videoRef.current`) exists exactly when the
    error panel is not rendered, so every handler that returns early on
    `!videoRef.current` returns early on `error`. */
module VideoPlayer {

  import opened Common
  import SourceList

  /** The play request in flight (`playPromiseRef.current`). A manual request
      remembers the source index the click handler closed over. */
  datatype Request = Autoplay | Manual(issuedAt: nat)

  datatype Player = Player(
    sources: seq<string>,        // processedVideoSources
    autoplay: bool,              // the `autoplay` prop
    idx: nat,                    // currentSourceIndex
    error: bool,                 // the error panel replaces the player
    isPlaying: bool,
    isMuted: bool,
    volume: real,
    currentTime: real,
    duration: real,
    isBuffering: bool,
    userInteracted: bool,
    autoplayAttempted: bool,
    pending: Option<Request>)
  {
    /** `videoRef.current` is non-null. */
    predicate HasElement() { !error }

    /** The index of the last source, `processedVideoSources.length - 1`. */
    function LastIndex(): int { |sources| - 1 }
  }

  datatype Event =
    | Visibility(isIntersecting: bool)
    | PlayResolved
    | PlayRejected
    | MediaError
    | MetadataLoaded(mediaDuration: real)
    | TimeUpdate(mediaTime: real)
    | MediaPlay
    | MediaPause
    | MediaEnded
    | Waiting
    | Playing
    | TogglePlay
    | ToggleMute
    | SetVolume(newVolume: real)
    | Seek(fraction: real)
    | Skip(seconds: real)

  /** The volume restored when unmuting a silent player. */
  const RestoredVolume: real := 0.5

  /** The state right after mount. `videoSources` and `autoplay` are the props;
      `None` is a prop left undefined, which takes its default. */
  function Init(videoSources: Option<seq<string>>, autoplay: Option<bool>): (s: Player)
    ensures s.sources == SourceList.FilterNonEmpty(SourceList.SourcesProp(videoSources))
    ensures s.idx == 0 && !s.error && !s.isPlaying && !s.isMuted && s.volume == 1.0
    ensures s.autoplay == (autoplay.Some? && autoplay.value)
    ensures !s.userInteracted && !s.autoplayAttempted && s.pending.None?
    ensures s.currentTime == 0.0 && s.duration == 0.0 && !s.isBuffering
  {
    SourceList.ProcessSourcesIsFilter(SourceList.SourcesProp(videoSources));
    Player(
      SourceList.ProcessSources(SourceList.SourcesProp(videoSources)),
      match autoplay case None => false case Some(a) => a,
      0, false, false, false, 1.0, 0.0, 0.0, false, false, false, None)
  }

  /** `handleVideoError` evaluated with source index `at`: latch the error at
      (or past) the last source, otherwise move to the source after `at`. */
  function FailSourceAt(s: Player, at: nat): (r: Player)
    ensures at >= s.LastIndex() ==> r == s.(error := true)
    ensures at < s.LastIndex() ==> r == s.(idx := at + 1)
  {
    if at >= s.LastIndex() then s.(error := true) else s.(idx := at + 1)
  }

  /** `handleVideoError` as the element's `error` listener runs it: with the
      current index. */
  function OnMediaError(s: Player): (r: Player)
    ensures s.idx < s.LastIndex() ==> r.idx == s.idx + 1 && r.error == s.error
    ensures s.idx >= s.LastIndex() ==> r.error && r.idx == s.idx
    ensures r.(idx := s.idx, error := s.error) == s
  {
    FailSourceAt(s, s.idx)
  }

  /** The IntersectionObserver callback. The effect that installs it returns
      early once `error` or `autoplayAttempted` is set and is torn down and
      re-run whenever either changes, so from then on no visibility handling
      happens at all. */
  function OnVisibility(s: Player, isIntersecting: bool): (r: Player)
    ensures s.error || s.autoplayAttempted ==> r == s
    ensures IssuesAutoplay(s, Visibility(isIntersecting)) ==>
      r.autoplayAttempted && r.isMuted && r.pending == Some(Autoplay) && r.isPlaying == s.isPlaying
    ensures !IssuesAutoplay(s, Visibility(isIntersecting)) ==>
      r.autoplayAttempted == s.autoplayAttempted && r.pending == s.pending && r.isMuted == s.isMuted
    ensures r.isPlaying != s.isPlaying ==>
      !isIntersecting && s.isPlaying && s.pending.None? && !s.autoplayAttempted && !s.error
    ensures r.(autoplayAttempted := s.autoplayAttempted, isMuted := s.isMuted,
               pending := s.pending, isPlaying := s.isPlaying) == s
  {
    if !s.HasElement() || s.autoplayAttempted then s
    else if isIntersecting && s.autoplay && !s.isPlaying && !s.userInteracted then
      // latch, force mute, issue play()
      s.(autoplayAttempted := true, isMuted := true, pending := Some(Autoplay))
    else if !isIntersecting && s.isPlaying then
      if s.pending.None? then s.(isPlaying := false) else s
    else s
  }

  /** Whether a visibility event issues the autoplay request. */
  predicate IssuesAutoplay(s: Player, e: Event)
  {
    e.Visibility? && e.isIntersecting && s.HasElement() && !s.autoplayAttempted
    && s.autoplay && !s.isPlaying && !s.userInteracted
  }

  /** The `.then` branch of either play request. */
  function OnPlayResolved(s: Player): (r: Player)
    ensures s.pending.Some? ==> r.isPlaying && r.pending.None?
    ensures r.(isPlaying := s.isPlaying, pending := s.pending) == s
  {
    if s.pending.None? then s else s.(isPlaying := true, pending := None)
  }

  /** The `.catch` branch. A rejected autoplay only reports "not playing"; a
      rejected manual play also counts as a failure of the source it was
      issued for, which moves playback past that source unless an element
      error already did (see `PlayerFindings` for the code as written). */
  function OnPlayRejected(s: Player): (r: Player)
    ensures r.pending.None?
    ensures s.pending.Some? ==> !r.isPlaying
    ensures s.pending == Some(Autoplay) ==> r == s.(isPlaying := false, pending := None)
    ensures s.pending == Some(Manual(s.idx)) ==>
      r == OnMediaError(s.(isPlaying := false, pending := None))
    ensures r.idx >= s.idx
  {
    match s.pending
    case None => s
    case Some(Autoplay) => s.(isPlaying := false, pending := None)
    case Some(Manual(at)) =>
      var s1 := s.(isPlaying := false, pending := None);
      if at == s.idx then FailSourceAt(s1, at) else s1
  }

  /** `loadedmetadata`: record the duration and clear the error flag. */
  function OnMetadataLoaded(s: Player, d: real): (r: Player)
    ensures r.duration == d && !r.error && r.idx == s.idx
  {
    s.(duration := d, error := false)
  }

  function TogglePlayStep(s: Player): (r: Player)
    ensures s.error ==> r == s
    ensures !s.error && s.pending.Some? ==> r == s.(userInteracted := true)
    ensures !s.error && s.pending.None? && s.isPlaying ==>
      r == s.(userInteracted := true, isPlaying := false)
    ensures !s.error && s.pending.None? && !s.isPlaying ==>
      r == s.(userInteracted := true, pending := Some(Manual(s.idx)))
  {
    if !s.HasElement() then s
    else
      var s1 := s.(userInteracted := true);
      if s1.pending.Some? then s1            // do not interrupt the pending play()
      else if s1.isPlaying then s1.(isPlaying := false)   // pause()
      else s1.(pending := Some(Manual(s1.idx)))          // play()
  }

  function ToggleMuteStep(s: Player): (r: Player)
    ensures s.error ==> r == s
    ensures !s.error ==> r.isMuted == !s.isMuted && r.userInteracted
    ensures !s.error && !r.isMuted ==> r.volume != 0.0
    ensures r.volume != s.volume ==> s.volume == 0.0 && !r.isMuted && r.volume == RestoredVolume
    ensures r.(isMuted := s.isMuted, volume := s.volume, userInteracted := s.userInteracted) == s
  {
    if !s.HasElement() then s
    else
      var muted := !s.isMuted;
      var s1 := s.(userInteracted := true, isMuted := muted);
      if !muted && s.volume == 0.0 then s1.(volume := RestoredVolume) else s1
  }

  /** `handleVolumeChange`. */
  function SetVolumeStep(s: Player, v: real): (r: Player)
    ensures s.error ==> r == s
    ensures !s.error ==> r.volume == v && r.userInteracted && (r.isMuted <==> v == 0.0)
    ensures r.(isMuted := s.isMuted, volume := s.volume, userInteracted := s.userInteracted) == s
  {
    if !s.HasElement() then s
    else
      var s1 := s.(userInteracted := true, volume := v);
      if v == 0.0 then s1.(isMuted := true)
      else if s.isMuted then s1.(isMuted := false)
      else s1
  }

  /** `handleProgressBarClick`, with the click's position along the bar as a
      fraction of its width. */
  function SeekStep(s: Player, fraction: real): (r: Player)
    ensures s.error || s.duration == 0.0 ==> r == s
    ensures !s.error && s.duration != 0.0 ==>
      r == s.(userInteracted := true, currentTime := fraction * s.duration)
    ensures !s.error && 0.0 <= fraction <= 1.0 && 0.0 < s.duration ==> 0.0 <= r.currentTime
    ensures !s.error && 0.0 <= fraction <= 1.0 && 0.0 < s.duration ==> r.currentTime <= s.duration
  {
    if !s.HasElement() || s.duration == 0.0 then s
    else s.(userInteracted := true, currentTime := fraction * s.duration)
  }

  /** `skipTime`: `Math.max(0, Math.min(duration, currentTime + seconds))`. */
  function SkipStep(s: Player, seconds: real): (r: Player)
    ensures s.error ==> r == s
    ensures !s.error && 0.0 <= s.duration ==> 0.0 <= r.currentTime <= s.duration
    ensures !s.error && 0.0 <= s.currentTime + seconds <= s.duration ==>
      r.currentTime == s.currentTime + seconds
    ensures !s.error && s.currentTime + seconds < 0.0 ==> r.currentTime == 0.0
    ensures !s.error && 0.0 <= s.duration < s.currentTime + seconds ==> r.currentTime == s.duration
    ensures r.(userInteracted := s.userInteracted, currentTime := s.currentTime) == s
  {
    if !s.HasElement() then s
    else s.(userInteracted := true,
            currentTime := Max(0.0, Min(s.duration, s.currentTime + seconds)))
  }

  /** One event. The source list and the `autoplay` prop never change, the
      index never moves backwards, and the autoplay latch is never reset. */
  function Step(s: Player, e: Event): (r: Player)
    ensures r.sources == s.sources && r.autoplay == s.autoplay
    ensures r.idx >= s.idx
    ensures s.autoplayAttempted ==> r.autoplayAttempted
  {
    match e
    case Visibility(v) => OnVisibility(s, v)
    case PlayResolved => OnPlayResolved(s)
    case PlayRejected => OnPlayRejected(s)
    case MediaError => OnMediaError(s)
    case MetadataLoaded(d) => OnMetadataLoaded(s, d)
    case TimeUpdate(t) => s.(currentTime := t)
    case MediaPlay => s.(isPlaying := true)
    case MediaPause => s.(isPlaying := false)
    case MediaEnded => s.(isPlaying := false)
    case Waiting => s.(isBuffering := true)
    case Playing => s.(isBuffering := false)
    case TogglePlay => TogglePlayStep(s)
    case ToggleMute => ToggleMuteStep(s)
    case SetVolume(v) => SetVolumeStep(s, v)
    case Seek(f) => SeekStep(s, f)
    case Skip(sec) => SkipStep(s, sec)
  }

  /** A sequence of events, in order. */
  function Run(s: Player, es: seq<Event>): Player
    decreases |es|
  {
    if |es| == 0 then s else Run(Step(s, es[0]), es[1..])
  }
}
